=== FILE: README.md ===
# funcli in Dafny

A model of the core of funcli, a small Python library. Its `fun_to_cli`
turns a list of Python functions into an argparse command-line interface:
one subcommand per function and one `--flag` per parameter. After parsing it
calls the chosen function with the parsed values.

The model covers the parts of `fun_to_cli` that decide things. It does not
cover the argparse engine those decisions are handed to.

The whole chain, from classification through translation to the run, takes a
`Program` argument (`ArgSpecs.Program`) and is stated for two readings of the
code:
- `AsWritten(mods)` is the code as it stands. `get_type_from_str` searches
  the loaded modules `mods`, a list argument's value is iterated whatever it
  is, and an enum argument's value is always looked up by name.
- `Corrected` is the code with the three defects under "## Findings"
  repaired.

Lemmas named `...Readings` state where the two readings agree. The
`Findings` members state where they differ.

- **Type classification** (`ArgSpecs`, `TypeNames`). A parameter is a record
  of its name, its optional annotation and its optional default. From that
  record the model derives:
  - the type the parameter was declared with;
  - the type argparse converts each value to;
  - the type name shown in the help.

  It also derives the required flag, the default and its rendering, the help
  line, the argparse action, and the choice set of an enum. The printed-name
  round trip the source uses for `list[T]` (`get_type_from_str`) is modelled
  as written (`ArgSpecs.ClassifyAsWritten`). The corrected classification is
  `ArgSpecs.Classify`.
- **Docstring scanners** (`Docstrings`). These are `get_arg_description` and
  `extract_description_from_docstring`. Both are folds over
  `splitlines()`.
- **`CustomAppendAction`** (`AppendAction`). A two-field state machine that
  drops a pre-seeded list default on the first occurrence of the flag. It
  is compared with argparse's stock `append`, which keeps that default.
- **Function table and translation** (`Registry`). The dict comprehension
  that keys the functions by name, and the translation of every function
  into a subcommand description plus its flags.
- **Run-time decisions** (`Invocation`, `Dispatch`):
  - the version line and the parser's description;
  - the rewriting of `sys.argv` that injects the default subcommand;
  - the flat `vars(namespace)` dict, in which the subcommand, `--full-help`
    and `--version` share one key space with the parameters;
  - precedence between `--full-help`, `--version` and the call;
  - the choice of the function;
  - the re-coercion of parsed values, where enum names are looked up as
    members, item by item for lists;
  - the text of a reported `ArgError` raised with a name and a message
    only.
- **Concrete runs** (`Scenarios`). The command lines the repository's tests
  pin down, stated over the model.

Supporting modules:
- `Results`: `Option`, `Result` and the error kinds.
- `PyText`: the Python `str` operations used, with Python's semantics.
- `PyModel`: Python types and values, and how `str()`, `repr()` and
  `get_type_name` print them.

## Model

| member | source | states |
|---|---|---|
| PyText.Strip | funcli.py:213-223 | `str.strip()` gives a slice of the text with no whitespace at either end, and everything cut off on either side is whitespace |
| PyText.StripEmptyIffBlank | funcli.py:223 | a stripped text is empty exactly when the text was all whitespace |
| PyText.SplitLines | funcli.py:210 | `splitlines()` gives lines without line boundaries, which rebuild the text when each gets back its terminator (`\r\n` or one boundary character); only a non-empty last line may run to the end without one, and a `\r` is never split from the `\n` after it; no lines exactly for the empty text |
| PyText.SplitLinesUnique | funcli.py:210 | those properties fix the lines: any lines without a boundary that rebuild the text that way are the ones `splitlines()` returns |
| PyModel.MemberNames | funcli.py:94 | `[value.name for value in list(E)]` lists every member's name at the member's position |
| PyModel.TypeName | funcli.py:134-142 | a plain class prints as its `__name__` (`int`, `list[str]`, never starting with `<`); an enum class, whose metaclass is not `type`, prints as `<enum 'Name'>` |
| Results.MapResult | funcli.py:486-492 | a loop over items succeeds exactly when every step does, keeping one result per item in order; a failure is the first failing item's, after only succeeding ones |
| TypeNames.ResolveByName | funcli.py:145-162 | a builtin name evaluates first; otherwise a text without exactly one dot fails, and a found type is what the named module defines under the name after the dot |
| TypeNames.ResolveTypeNameRoundTrip | funcli.py:134-150 | resolving the printed name of a builtin type (`int`, `list[str]`, ...) gives that type back |
| TypeNames.EvalBuiltinList | funcli.py:148 | evaluating `list[X]` gives the list of what `X` evaluates to, and fails when `X` fails |
| TypeNames.ResolveQualifiedName | funcli.py:153-162 | a `module.Name` text resolves to what that module defines under that name, and otherwise fails |
| TypeNames.StripListTextOfAlias | funcli.py:339 | removing `list`, `[` and `]` from `list[X]` leaves `X` when `X` holds none of them |
| TypeNames.ListElementByNameAgrees | funcli.py:337-346 | for a builtin scalar, or an enum with plain module and class names, the name round trip finds the list's element type itself |
| TypeNames.ListElementByNameMangles | funcli.py:339 | for an enum class named `<a>list`, the textual removal also cuts `list` out of the class name, so `module.<a>` is looked up instead |
| TypeNames.ChecklistElementUnresolved | funcli.py:339-346 | `list[Checklist]` leads to a lookup of `__main__.Check`, which fails |
| ArgSpecs.FinalType | funcli.py:67-70 | `get_final_type` is the element type for `list[T]` and the type itself otherwise |
| ArgSpecs.IsList | funcli.py:75-78 | `is_list` raises for an unknown type, and otherwise holds exactly for `list[T]` and bare `list` |
| ArgSpecs.IsEnum | funcli.py:67-73 | `is_enum` raises for an unknown final type and for a nested generic list; otherwise it holds exactly for `E` and `list[E]` |
| ArgSpecs.GetAction | funcli.py:80-89 | the paired flag exactly when the translated type is `bool`; custom append exactly for a list that is not translated to `bool`; `store` exactly for the rest |
| ArgSpecs.GetChoices | funcli.py:91-98 | choices exist exactly when the final type is an enum, and are then its member names |
| ArgSpecs.Classify | funcli.py:316-354 | corrected classification: succeeds exactly for supported parameters; fails with a nesting error for `list[list[..]]` and with a not-a-class error for an unknown type; the declared type is kept as the original type |
| ArgSpecs.ClassifyScalar | funcli.py:316-337 | an `int`/`str`/`bool` parameter, whether annotated or typed by its default, keeps its type and shows the type's name |
| ArgSpecs.ClassifyBareList | funcli.py:341-343 | a bare `list` (annotated or the type of a list default) and `list[list]` read each value as `str` and show `list[str]` |
| ArgSpecs.ClassifyScalarList | funcli.py:338-346 | `list[T]` of a builtin scalar converts each value to `T` and shows `T`'s name |
| ArgSpecs.ClassifyEnum | funcli.py:351-353 | an enum, a list of one, or an enum-member default is read as `str` and shows the enum class |
| ArgSpecs.ClassifyAsWrittenAgrees | funcli.py:337-346 | where the element's printed name is plain, the source's classification equals the corrected one |
| ArgSpecs.ClassifyAsWrittenElementError | funcli.py:346 | when the element type cannot be found again from its name, the source's classification fails with that error |
| ArgSpecs.ChecklistParamRejected | funcli.py:337-354 | for `list[Checklist]` the source fails on `__main__.Check`, while the corrected classification reads `Checklist` member names |
| ArgSpecs.ChecklistFlag | funcli.py:337-390 | in the source's reading the `list[Checklist]` parameter gets no flag (the error is `__main__.Check`); in the corrected reading it gets a flag exactly when it is not named `help`, and that flag offers `todo` and `done` |
| ArgSpecs.DefaultRepr | funcli.py:364-367 | for a `str` parameter that is no list, the shown default is the default's `str()` between single quotes; otherwise it is the `str()` itself |
| ArgSpecs.HelpText | funcli.py:370-378 | the help is `[`, `REQUIRED` or `optional` as the flag is required or not, `, `, the type name, `, default:`, the shown default, `]`, then `: <description>` only for a non-empty description; each field at its place, and the length is the sum of the fields |
| ArgSpecs.BuildArg | funcli.py:300-390 | in either reading a flag is built exactly when the reading's classification succeeds and the parameter is not named `help` (in the corrected reading, exactly for supported parameters not named `help`); a failed classification is the error, and otherwise a parameter named `help` fails with the conflicting option `--help`, which the subparser's own help already owns; the flag keeps the name; it is required exactly when there is no default, which then becomes `None`; its description is the docstring's |
| ArgSpecs.BuildArgReadings | funcli.py:309-378 | where the two classifications agree the two readings build the same flag; where the source's fails its flag fails with that error |
| ArgSpecs.OptionStrings | funcli.py:382-390 | every flag has `--<name>`, and exactly the paired action adds a second option string |
| ArgSpecs.PairedFlagForms | funcli.py:81-83 | the paired flag's `--<name>` stores true and its `--no-<name>` stores false |
| ArgSpecs.ActionSelection | funcli.py:80-89 | the paired action exactly for translated `bool`, checked first; custom append exactly for another list; `store` for the rest |
| ArgSpecs.BoolFlagAction | funcli.py:80-83 | a `bool` and a `list[bool]` parameter get a flag exactly when not named `help`, and it is the paired flag |
| ArgSpecs.ChoicesAreMemberNames | funcli.py:91-98 | choices exist exactly for an enum or a list of one, and are its member names in declaration order |
| ArgSpecs.DefaultQuoting | funcli.py:363-367 | the shown default is quoted exactly for a `str` or enum parameter, and is the `str()` of the default either way |
| ArgSpecs.HelpShape | funcli.py:357-378 | a built flag's help starts `[REQUIRED, ` exactly when the parameter has no default, then holds the flag's type name, `, default:`, its shown default and `]` at their places, and ends `: <description>` only when the description is non-empty |
| Docstrings.ArgDescription | funcli.py:204-223 | the description is stripped, and is empty for a missing or empty docstring |
| Docstrings.ArgDescriptionIsSection | funcli.py:207-223 | the description is the parameter's section: from the first tag line to the next line that opens another parameter, with the tag removed, `:return:` lines dropped and every line stripped |
| Docstrings.TaggedWithoutText | funcli.py:210-223 | a parameter whose tag line holds only indentation and the tag, followed by another parameter's tag line or the end, has the empty description |
| Docstrings.UntaggedParamHasNoDescription | funcli.py:207-223 | a parameter the docstring never tags has an empty description |
| Docstrings.FunctionDescription | funcli.py:225-234 | the function description is stripped, and empty for an empty docstring |
| Docstrings.FunctionDescriptionIsPreamble | funcli.py:225-234 | the function description is the stripped lines before the first line starting with `:param ` or `:return:`; nothing from that line on counts |
| AppendAction.Call | funcli.py:31-40 | one occurrence counts one call; it succeeds exactly when the value still is the first-call default or is a list; the first call on the default gives `[v]`; every other call appends `v` at the end |
| AppendAction.ReplayAppends | funcli.py:35-40 | once the flag has been seen, every further occurrence appends its value in order |
| AppendAction.AppendReplacesDefault | funcli.py:14-40 | starting from the default, `k` occurrences leave exactly the `k` supplied values in order, and no occurrence leaves the default |
| AppendAction.StockReplayAppends | funcli.py:14-23 | argparse's stock `append` keeps the list it starts from in front of the supplied values |
| AppendAction.CustomVersusStock | funcli.py:14-23 | the custom action drops a non-empty list default where the stock action keeps it, and agrees with the stock action started from `None` |
| Registry.Insert | funcli.py:242 | `d[name] = f` keeps names distinct; a known name keeps its place and takes the new function; a new name goes last |
| Registry.FunctionTable | funcli.py:242 | the table has each name once, in first-occurrence order, holding the last function of that name |
| Registry.FunctionTableNames | funcli.py:242 | a name has an entry exactly when some function has that name |
| Registry.BuildArgs | funcli.py:309-390 | a function's flags are built exactly when every parameter's flag is, one per parameter and in signature order; a failure is the error of the first parameter that fails, every earlier one having built |
| Registry.BuildFunction | funcli.py:286-390 | a subcommand keeps the function's name; its description is the docstring's preamble, and empty without a docstring; it has one flag per parameter, each with the parameter's name |
| Registry.BuildAll | funcli.py:286-390 | every function of the table is translated, in table order and keeping its name, or the translation fails with the error of the first function that fails, every earlier one having translated |
| Registry.BuildCli | funcli.py:242-390 | the subcommands are built exactly when every function of the table translates; there is one per distinct function name, in the order the names first occur; a failure is the error of the first function of the table that fails, every earlier one having translated |
| Registry.BuildAllReadings | funcli.py:286-390 | where every parameter classifies alike in the two readings, they build the same subcommands |
| Invocation.AppName | funcli.py:245-251 | a missing `__app_name__`, or one equal to `__main__`, reads as "Anonymous script"; any other name is kept |
| Invocation.Version | funcli.py:254-258 | `__version__` when the script defines it, and `0.0.0` otherwise |
| Invocation.VersionLine | funcli.py:267 | the version line is `<name> version:`, then exactly the version, then ` by <author>` |
| Invocation.ModuleDoc | funcli.py:270-276 | the parser's description is the version line, one line break, then the script's docstring (empty when it has none) |
| Invocation.AnonymousVersionLine | funcli.py:250-267 | without metadata the line is `Anonymous script version:0.0.0 by Anonymous author` |
| Invocation.ArgvToParse | funcli.py:416-435 | argv is parsed unchanged when `argv[1]` names a function or a help/version flag occurs; otherwise the default name is put in front |
| Invocation.InjectionStable | funcli.py:416-435 | with a registered default, rewriting the rewritten command line changes nothing |
| Invocation.InjectionUnstable | funcli.py:433-435 | with an unregistered default, a second rewriting injects the name once more |
| Invocation.Lookup | funcli.py:440-465 | `parsed_args[key]` finds a value exactly when the key is present, and that entry is in the dict; a missing key is the `KeyError` for that key |
| Invocation.Delete | funcli.py:445-467 | after `del parsed_args[key]` the key is gone, and deleting an absent key changes nothing |
| Invocation.DeleteOther | funcli.py:445-467 | deleting one key leaves every other key's value as it was |
| Invocation.TopKeys | funcli.py:283-405 | the top-level parser's own entries are keyed exactly by `subcommand`, `full_help` and `version` |
| Invocation.SelectSubcommand | funcli.py:455-465 | a true parsed subcommand is looked up in the table; a false one is replaced by the default; no default gives "Subcommand required!"; a name outside the table is the `KeyError`; a list is unhashable |
| Invocation.SpecNamed | funcli.py:465-476 | the entry looked up by name is in the table and has that name |
| Invocation.Run | funcli.py:439-497 | on the flat parsed dict: a true `full_help` shows the full help; otherwise a true `version` shows the version line; otherwise the function `SelectSubcommand` picks is called with the rest of the dict re-coerced; every missing key, selection error and re-coercion error stops the run with that error; a call's arguments hold none of the three switch names |
| Invocation.RunOnTop | funcli.py:439-497 | on a dict holding the three switches first and only other keys after them, the run is the run on separate fields |
| Invocation.RunWithoutClashes | funcli.py:419-497 | when no parameter is named `subcommand`, `full_help` or `version`, the run on the namespace argparse builds equals the run on separate fields |
| Invocation.ParameterOverTop | funcli.py:382-405 | a parameter named like a switch overwrites that switch's entry in place, and the other parameters follow in order |
| Invocation.VersionParameterShadows | funcli.py:447-451 | a parameter named `version` with a true value prints the version line instead of calling the function, whether `--version` was given or not |
| Invocation.VersionFlagHidden | funcli.py:447-451 | a parameter named `version` with a false value hides `--version`: the run never prints the version line |
| Invocation.SubcommandParameterRedirects | funcli.py:455-476 | a parameter named `subcommand` holding a non-empty name decides which function is called, whatever subcommand was parsed; a name outside the table is the `KeyError` |
| Invocation.RunReadings | funcli.py:471-497 | with no `None` among the values handed on, the source's run and the corrected run agree |
| Invocation.ArgErrorText | funcli.py:42-46 | `str(ArgError(name, message))`, raised without extra arguments, is the name, `: `, then the message, each at its place |
| Invocation.ArgErrorReport | funcli.py:507-508 | the printed line is `ERROR: ` followed by exactly the error's text |
| Invocation.ArgErrorTextParses | funcli.py:42-46 | `<name>: <message>` gives back the name up to the first colon, and the message after the separator |
| Dispatch.MemberNamed | funcli.py:483 | `E[name]` finds a member exactly when one has that name, and what it finds has that name |
| Dispatch.CastValue | funcli.py:479-484 | a non-enum argument keeps its value; an enum argument keeps a member; a string becomes the member of that name, and fails exactly when no member has it |
| Dispatch.Iterate | funcli.py:488 | iterating a list gives its items and iterating a string gives its characters; anything else is not iterable |
| Dispatch.CastAll | funcli.py:486-492 | every item is cast in order, and the loop succeeds exactly when every cast does |
| Dispatch.CastArgAsWritten | funcli.py:479-494 | the source's re-coercion: a non-list argument casts its value; a list argument fails on a value that is neither a list nor a string, and otherwise casts every item in order, succeeding exactly when every cast does |
| Dispatch.CastArg | funcli.py:479-494 | corrected re-coercion: a `None` is handed on, and every other value is re-coerced as the source does |
| Dispatch.CastReadings | funcli.py:479-494 | the readings re-coerce every value but `None` alike; for a plain argument the source also hands `None` on |
| Dispatch.FindArg | funcli.py:476 | `fun.args[key]` is found exactly when an argument has that name |
| Dispatch.RecoerceEntry | funcli.py:475-496 | one parsed entry keeps its key; a key no argument has is the `KeyError`; otherwise the value is re-coerced by that argument, and a failure is that cast's error |
| Dispatch.Recoerce | funcli.py:471-497 | the parsed mapping keeps its keys, order and size; it succeeds exactly when every key names an argument whose cast succeeds; each value is the cast of the parsed value; a failure is the error of the first entry that fails, every earlier one having been re-coerced |
| Dispatch.RecoerceReadings | funcli.py:471-497 | with no `None` among the parsed values the two readings hand the function the same arguments |
| Dispatch.ListCastKeepsShape | funcli.py:486-492 | a list value keeps its length and order, and item `i` of the result is item `i` cast |
| Dispatch.NonEnumPassesThrough | funcli.py:479-494 | values of an argument that is not an enum reach the function unchanged |
| Dispatch.EnumLookupMatchesChoices | funcli.py:479-484 | an enum argument's lookup accepts exactly the names in its choice set |
| Dispatch.LookupIffMemberName | funcli.py:483 | `E[s]` succeeds exactly when `s` is one of the member names |
| Dispatch.EnumNameRoundTrip | funcli.py:483 | with unique member names, each member's name is looked up to that member |
| Dispatch.NoneListDefault | funcli.py:486-488 | as written, a list parameter that defaults to `None` and is not supplied fails on `enumerate(None)`; the corrected re-coercion hands on `None` |
| Dispatch.NoneEnumDefault | funcli.py:480-483 | an enum parameter that defaults to `None` gets a flag exactly when not named `help`; as written, when it is not supplied it fails on `E[None]`; the corrected re-coercion hands on `None` |
| Scenarios.QuotePlain | tests/test_list.py:31 | `repr` of a string with no quote, backslash or control character puts it between single quotes |
| Scenarios.UnspecifiedListScenario | tests/test_list.py:31 | `an_unspecified_list --a_list 11 --a_list 22 --a_list 33` reads strings, appends all three and hands them on unchanged |
| Scenarios.StringListRepr | tests/test_list.py:31 | those strings print as `['11', '22', '33']` |
| Scenarios.IntListScenario | tests/test_list.py:57 | `an_int_list` with the same flags converts to ints, appends all three and hands them on |
| Scenarios.IntListRepr | tests/test_list.py:57 | those ints print as `[11, 22, 33]` |
| Scenarios.DefaultListScenario | tests/test_basics.py:52 | `default_value` without flags keeps the list default `['a', 'b', 'c']` |
| Scenarios.LetterListRepr | tests/test_basics.py:52 | that default prints as `['a', 'b', 'c']` |
| Scenarios.StrDefaultHelpScenario | tests/demo.py:39-47 | `a_str: str = "string"`, tagged `\t:param a_str:` without text before the line that tags `a_list`, gets the help `[optional, str, default:'string']` |
| Scenarios.BoolFlagScenario | tests/test_basics.py:65-75 | `a_bool` is required and offers `--a_bool`, storing true, and `--no-a_bool`, storing false |
| Scenarios.EnumFlag | tests/test_enum.py:28 | a required enum parameter not named `help` gets a `store` flag whose choices are the member names, and each name is handed on as its member |
| Scenarios.EnumScenario | tests/test_enum.py:28 | `an_enum --value value2` offers `value1` and `value2` and hands on the member `value2` |
| Scenarios.NoneListRunScenario | funcli.py:486-505 | `tags: list[str] = None` left out on the command line: the source's run stops on `enumerate(None)`, the corrected run calls the function with `tags=None` |
| Scenarios.ListBoolFlag | funcli.py:486-488 | a `list[bool]` parameter not named `help` gets the paired switch, which hands on a bool, which the list branch of the re-coercion cannot iterate |
| Scenarios.ListBoolFlagScenario | funcli.py:80-85 | a `list[bool]` parameter gets the paired switch, because `bool` is tested before `is_list`; the single bool it yields then fails re-coercion, so the run ends in `TypeError` in both readings |
| Scenarios.HelpParamScenario | funcli.py:300-390 | a function with a parameter `help: str` cannot be turned into a command line: building stops with the conflicting option `--help`, because the subparser was made with its own help |
| Scenarios.DemoVersionScenario | tests/test_help.py:25 | the demo's version line is `Demo version:0.0.1 by gme` |
| Scenarios.ArgErrorScenario | tests/test_errors.py:65 | the demo's reported error is `ERROR: test: This arg value doesn't look right` |

## Left out

- The argparse engine is not modelled. That covers tokenising, `int()`
  conversion, required and choice errors (exit status 2), and usage and help
  formatting. The full help of funcli.py:393-400 is left out for the same
  reason. The model states the configuration handed to `add_argument`. The
  paired flag's two option strings and stored values are modelled after
  argparse's `BooleanOptionalAction`.
- The parsed values of the chosen subparser are an input. How they land in
  the one namespace follows argparse's `setattr` behaviour
  (`Invocation.ArgparseNamespace`): the top-level parser first sets
  `subcommand`, `full_help` and `version`, then the subparser's values are
  set over them in parameter order. A parameter named like a switch
  therefore overwrites it in place.
- `inspect.signature` is replaced by explicit inputs: a parameter is
  `ArgSpecs.Param`, a function `Registry.FunctionDef`.
- The `from __main__ import ...` metadata is replaced by the explicit input
  `Invocation.Metadata`.
- `eval` in `get_type_from_str` is replaced by a table of builtin type names
  (`TypeNames.EvalBuiltin`). `sys.modules` is replaced by an explicit module
  map.
- A name without a dot is looked up in funcli's own module. That module
  defines no type of the model, so the lookup is modelled as failing.
- Printing, `sys.exit`, logging (`Arg.print` and every `log.debug`) and the
  `ArgError` report's `print` are left out. What is printed is stated as a
  string (`Invocation.ArgErrorReport`, `Invocation.VersionLine`).
- Invocation.ArgErrorText: covers `ArgError(name, message)` only. Extra
  positional arguments are passed on to `ValueError`, and `str` of the error
  is then the `repr` of the whole argument tuple; that form is not modelled.
- The `TypeError` message matching of funcli.py:512-520 is left out,
  because it inspects interpreter message text.
- The call of the chosen function itself is left out: it is foreign code.
  `Invocation.Run` ends in the call's target and arguments.
- `exit_on_error=False` is not modelled. With it, the run goes on after the
  help or version output, and argparse errors raise. The model takes the
  default `exit_on_error=True`.
- The `function_help` string of funcli.py:293-295 is built and never used,
  so it is left out.
- The module-level `definitions` dict survives across calls of
  `fun_to_cli`. The model has one call, and looks the argument records up
  in the translated table.
- `os.linesep` is taken to be `"\n"`.
- `AppendAction.Call` compares values with structural equality. Python's
  `==` also treats `1 == True` and `1 == 1.0` as equal; that is not
  modelled.
- `PyModel.PyRepr` renders strings with Python's quote choice. It escapes
  backslashes, quotes, `\n`, `\r` and `\t`. Other non-printable characters
  are not escaped.
- Enum members carry int values only. Aliases (two names for one value)
  are not modelled.
- Floats, and any other parameter type besides `int`, `str`, `bool`, enums,
  `list`, `list[T]` and `None`, are not modelled.
- The code and the project's own documentation disagree in two places. The
  model follows the code in both.
  - Two functions with the same name raise no error: the dict comprehension
    keeps the last one (`Registry.FunctionTable`).
  - With no default subcommand and no subcommand on the command line, the
    code injects the empty name. argparse rejects it as an invalid choice
    (exit status 2). "Subcommand required!" is then reached only where the
    parsed subcommand is empty (`Invocation.SelectSubcommand`,
    `Invocation.Run`).
- In the same vein, an unannotated parameter without a default, or with a
  `None` default, is not supported. `issubclass(None, list)` raises at
  funcli.py:78. The model gives it the error `NotAClass`
  (`ArgSpecs.Classify`) rather than a `str` fallback.
- A `list[bool]` parameter cannot be used: its flag yields one bool, and
  iterating that bool raises (`Scenarios.ListBoolFlagScenario`). The source
  does not show whether a list of bools or a single switch was meant, so
  the `Corrected` reading keeps this failure and no Findings row proposes a
  fix.
- Nested generics (`list[list[int]]`) and `list[None]` depend on the Python
  version's `issubclass` for aliases. The model reports them as unsupported.

## Findings

Each row has both halves in the model. The as-written member states the
failure in the `AsWritten` reading. The corrected member is the `Corrected`
reading of the same step.

| source | as written | input that shows it | evidently intended | confidence | as-written member | corrected member |
|---|---|---|---|---|---|---|
| funcli.py:339-346 | the element type of `list[T]` is found again by removing every `list`, `[` and `]` from the printed alias and resolving the rest by name | `list[Checklist]` for an enum `Checklist` of the main script: the text becomes `__main__.Check`, which does not exist | the element type is `T`, the type `get_final_type` already returns | medium, not executed | ArgSpecs.ChecklistFlag | ArgSpecs.Classify |
| funcli.py:486-488 | a list argument's value is iterated whatever it is | `tags: list[str] = None`, not supplied: argparse hands on `None`, and `enumerate(None)` raises `TypeError` outside the `try` of line 504 | an optional list left out reaches the function as its `None` default | medium, not executed | Scenarios.NoneListRunScenario | Dispatch.CastArg |
| funcli.py:480-483 | an enum argument's value is looked up by name unless it is already a member | `color: Color = None`, not supplied: `Color[None]` raises `KeyError` | an optional enum left out reaches the function as its `None` default | medium, not executed | Dispatch.NoneEnumDefault | Dispatch.CastArg |

=== FILE: appendaction.dfy ===
/** `CustomAppendAction` (funcli.py:14-40): the append action for list flags
    that drops the pre-seeded default on the first occurrence of the flag,
    compared with argparse's stock `append`, which keeps it (cpython issue
    60603). */
module AppendAction {
  import opened Results
  import opened PyModel

  /** The action's counter `called_times` and the namespace value of its
      destination. */
  datatype AppendState = AppendState(calledTimes: nat, current: Value)

  /** The state before the flag has been seen: the namespace holds the
      default. */
  function Initial(default: Value): AppendState {
    AppendState(0, default)
  }

  /** One occurrence of the flag with converted value `v`: on the first call a
      namespace value still equal to the default is replaced by a fresh empty
      list; then `v` is appended, which fails for a value that is not a list. */
  function Call(default: Value, st: AppendState, v: Value): (r: Result<AppendState>)
    ensures r.Ok? ==> r.value.calledTimes == st.calledTimes + 1
    ensures r.Ok? <==> (st.calledTimes == 0 && st.current == default) || st.current.VList?
    ensures r.Ok? && st.calledTimes == 0 && st.current == default ==> r.value.current == VList([v])
    ensures r.Ok? && !(st.calledTimes == 0 && st.current == default)
            ==> r.value.current == VList(st.current.items + [v])
  {
    var current := if st.calledTimes == 0 && st.current == default then VList([]) else st.current;
    assert [] + [v] == [v];
    if current.VList? then Ok(AppendState(st.calledTimes + 1, VList(current.items + [v])))
    else Err(NotAppendable)
  }

  /** The occurrences `vs` of the flag, in command-line order. */
  function Replay(default: Value, st: AppendState, vs: seq<Value>): Result<AppendState>
    decreases |vs|
  {
    if vs == [] then Ok(st)
    else
      match Call(default, st, vs[0])
      case Ok(next) => Replay(default, next, vs[1..])
      case Err(e) => Err(e)
  }

  /** Once the flag has been seen, every further occurrence appends. */
  lemma {:induction false} ReplayAppends(default: Value, k: nat, xs: seq<Value>, vs: seq<Value>)
    requires k >= 1
    ensures Replay(default, AppendState(k, VList(xs)), vs) == Ok(AppendState(k + |vs|, VList(xs + vs)))
    decreases |vs|
  {
    if vs != [] {
      ReplayAppends(default, k + 1, xs + [vs[0]], vs[1..]);
      assert xs + [vs[0]] + vs[1..] == xs + vs;
    } else {
      assert xs + vs == xs;
    }
  }

  /** Whatever the default, `k` occurrences leave exactly the `k` supplied
      values in order (the default is never kept), and no occurrence leaves
      the default. */
  lemma AppendReplacesDefault(default: Value, vs: seq<Value>)
    ensures vs == [] ==> Replay(default, Initial(default), vs) == Ok(Initial(default))
    ensures vs != [] ==> Replay(default, Initial(default), vs) == Ok(AppendState(|vs|, VList(vs)))
  {
    if vs != [] {
      ReplayAppends(default, 1, [vs[0]], vs[1..]);
      assert [vs[0]] + vs[1..] == vs;
    }
  }

  // ---------------------------------------------------------------------
  // argparse's own `append`, for comparison

  /** The stock `append`: copies the namespace list (`None` gives an empty
      one) and appends, so a list default stays in front. */
  function StockCall(current: Value, v: Value): Result<Value> {
    match current
    case VNone => Ok(VList([v]))
    case VList(xs) => Ok(VList(xs + [v]))
    case _ => Err(NotAppendable)
  }

  function StockReplay(current: Value, vs: seq<Value>): Result<Value>
    decreases |vs|
  {
    if vs == [] then Ok(current)
    else
      match StockCall(current, vs[0])
      case Ok(next) => StockReplay(next, vs[1..])
      case Err(e) => Err(e)
  }

  lemma {:induction false} StockReplayAppends(xs: seq<Value>, vs: seq<Value>)
    ensures StockReplay(VList(xs), vs) == Ok(VList(xs + vs))
    decreases |vs|
  {
    if vs != [] {
      StockReplayAppends(xs + [vs[0]], vs[1..]);
      assert xs + [vs[0]] + vs[1..] == xs + vs;
    } else {
      assert xs + vs == xs;
    }
  }

  /** The custom action behaves like the stock one without a default, and
      unlike the stock one with a non-empty list default, which the stock
      action keeps in front of the supplied values. */
  lemma CustomVersusStock(d: seq<Value>, vs: seq<Value>)
    requires vs != []
    ensures Replay(VList(d), Initial(VList(d)), vs) == Ok(AppendState(|vs|, VList(vs)))
    ensures StockReplay(VNone, vs) == Ok(VList(vs))
    ensures StockReplay(VList(d), vs) == Ok(VList(d + vs))
  {
    AppendReplacesDefault(VList(d), vs);
    StockReplayAppends(d, vs);
    StockReplayAppends([vs[0]], vs[1..]);
    assert [vs[0]] + vs[1..] == vs;
  }
}

=== FILE: argspecs.dfy ===
/** The per-parameter translation of `fun_to_cli` (funcli.py:309-390): from a
    parameter's annotation and default to the flag configuration handed to
    `add_argument` — type, display name, required flag, default and its
    rendering, help text, action and choice set — together with the `Arg`
    helpers it relies on (funcli.py:67-98). */
module ArgSpecs {
  import opened Results
  import opened PyText
  import opened PyModel
  import opened TypeNames
  import opened Docstrings

  /** One parameter of a function's signature: its name, its annotation
      (`None` when unannotated) and its default (`None` is `inspect._empty`,
      `Some(VNone)` a default of Python `None`). */
  datatype Param = Param(name: string, annotation: Option<PyType>, default: Option<Value>)

  /** The argparse action a flag gets: `store`, the paired `--x/--no-x`
      flag, or `CustomAppendAction`. */
  datatype Action = Store | BooleanOptional | CustomAppend

  /** What classification decides: the type the parameter was declared with,
      the type argparse converts each value to, and the type name shown in
      the help. */
  datatype Typing = Typing(original: PyType, translated: PyType, typeName: string)

  /** The fields of an `Arg` once the loop body of funcli.py:309-390 is done,
      plus the action and choices handed to `add_argument`. */
  datatype ArgSpec = ArgSpec(
    name: string,
    required: bool,
    typing: Typing,
    default: Value,
    defaultRepr: string,
    description: string,
    help: string,
    action: Action,
    choices: Option<seq<string>>)

  // ---------------------------------------------------------------------
  // The `Arg` helpers

  /** `get_final_type`: the element type of `list[T]`, otherwise the type. */
  function FinalType(t: PyType): (r: PyType)
    ensures t.List? ==> t == List(r)
    ensures !t.List? ==> r == t
  {
    if t.List? then t.elem else t
  }

  predicate IsListType(t: PyType) {
    t.List? || t == BareList
  }

  /** `is_list`: `issubclass(None, list)` raises for an unknown type. */
  function IsList(t: PyType): (r: Result<bool>)
    ensures r.Ok? <==> t != NoneType
    ensures r.Ok? ==> (r.value <==> t.List? || t == BareList)
  {
    if t == NoneType then Err(NotAClass) else Ok(IsListType(t))
  }

  /** `is_enum`: `issubclass` raises for `None` and for a generic alias
      (`list[list[int]]`, whose final type is `list[int]`). */
  function IsEnum(t: PyType): (r: Result<bool>)
    ensures r.Ok? <==> FinalType(t) != NoneType && !FinalType(t).List?
    ensures r.Ok? ==> (r.value <==> exists e :: t == Enum(e) || t == List(Enum(e)))
  {
    match FinalType(t)
    case NoneType => Err(NotAClass)
    case List(_) => Err(UnsupportedNesting)
    case Enum(_) => Ok(true)
    case _ => Ok(false)
  }

  /** `get_action`: the translated type is tested for `bool` before the
      original type is tested for being a list. */
  function GetAction(typing: Typing): (r: Action)
    ensures r == BooleanOptional <==> typing.translated == Bool
    ensures r == CustomAppend <==> typing.translated != Bool && IsListType(typing.original)
    ensures r == Store <==> typing.translated != Bool && !IsListType(typing.original)
  {
    if typing.translated == Bool then BooleanOptional
    else if IsListType(typing.original) then CustomAppend
    else Store
  }

  /** `get_choices`: iterating the final type lists an enum's members; any
      other class is not iterable and the `TypeError` gives no choices. */
  function GetChoices(original: PyType): (r: Option<seq<string>>)
    ensures r.Some? <==> FinalType(original).Enum?
    ensures r.Some? ==> r.value == MemberNames(FinalType(original).e)
  {
    match FinalType(original)
    case Enum(e) => Some(MemberNames(e))
    case _ => None
  }

  // ---------------------------------------------------------------------
  // Classification (funcli.py:316-354)

  /** The original and the first translated type: an annotation wins, then
      the type of a default other than `None`; otherwise the original type is
      unknown and the translated one `str`. */
  function DeclaredTypes(p: Param): (PyType, PyType) {
    match p.annotation
    case Some(t) => (t, t)
    case None =>
      if p.default.Some? && !p.default.value.VNone? then
        (TypeOf(p.default.value), TypeOf(p.default.value))
      else (NoneType, Str)
  }

  /** The display name of a list of unspecified element type. */
  const ListOfStrName := TypeName(List(Str))

  /** The classification steps of funcli.py:337-354, with the element type of
      an annotated `list[T]` obtained by `element`. */
  function ClassifyWith(p: Param, element: PyType -> Result<PyType>): (r: Result<Typing>)
    ensures r.Ok? ==> r.value.original == DeclaredTypes(p).0
  {
    var (original, declared) := DeclaredTypes(p);
    var name := TypeName(declared);
    var isList :- IsList(original);
    var listed :-
      if !isList then Ok((declared, name))
      else if FinalType(original) == BareList then Ok((Str, ListOfStrName))
      else
        match element(original)
        case Ok(t) => Ok((t, StripListText(name)))
        case Err(e) => Err(e);
    var isEnum :- IsEnum(original);
    if isEnum then Ok(Typing(original, Str, TypeName(FinalType(original))))
    else Ok(Typing(original, listed.0, listed.1))
  }

  /** Classification as the source writes it: the element type of `list[T]`
      is found again from the stripped display name (funcli.py:339, 346). */
  function ClassifyAsWritten(mods: Modules, p: Param): Result<Typing> {
    ClassifyWith(p, t => ListElementByName(mods, t))
  }

  /** The parameters the translator can handle: an unannotated parameter
      needs a default other than `None`, and a list's element may be neither
      `None` nor itself a generic list. */
  predicate Supported(p: Param) {
    match p.annotation
    case Some(t) => t != NoneType && (t.List? ==> t.elem != NoneType && !t.elem.List?)
    case None => p.default.Some? && !p.default.value.VNone?
  }

  /** The two readings of funcli.py this model follows: the code as it
      stands, whose `get_type_from_str` searches the loaded modules `mods`,
      and the code with its defects corrected (the element type of `list[T]`
      taken to be `T`, and a `None` default handed to the function as is). */
  datatype Program = AsWritten(mods: Modules) | Corrected

  /** Classification with the element type of `list[T]` taken to be `T`. */
  function Classify(p: Param): (r: Result<Typing>)
    ensures r.Ok? <==> Supported(p)
    ensures !Supported(p) && FinalType(DeclaredTypes(p).0).List? ==> r == Err(UnsupportedNesting)
    ensures !Supported(p) && !FinalType(DeclaredTypes(p).0).List? ==> r == Err(NotAClass)
    ensures r.Ok? ==> r.value.original == DeclaredTypes(p).0
  {
    ClassifyWith(p, t => Ok(FinalType(t)))
  }

  /** The classification of the chosen reading. */
  function ClassifyIn(prog: Program, p: Param): Result<Typing> {
    match prog
    case AsWritten(mods) => ClassifyAsWritten(mods, p)
    case Corrected => Classify(p)
  }

  /** Only an annotated `list[T]` (with `T` other than `list`) looks its
      element up by name, so for every other parameter the readings
      classify alike. */
  lemma ElementUnused(prog: Program, p: Param)
    requires !(DeclaredTypes(p).0.List? && DeclaredTypes(p).0.elem != BareList)
    ensures ClassifyIn(prog, p) == Classify(p)
  {
  }

  // ---------------------------------------------------------------------
  // Required flag, default and help (funcli.py:357-378)

  /** The help string: the required marker, the type name and the default,
      then the description only when there is one. The marker is eight
      characters either way, so the type name starts at index 11. */
  function HelpText(required: bool, typeName: string, defaultRepr: string, description: string): (h: string)
    ensures StartsWith(h, "[REQUIRED, ") <==> required
    ensures StartsWith(h, "[optional, ") <==> !required
    ensures var t := 11 + |typeName|;
      var d := t + 10 + |defaultRepr|;
      && |h| == d + 1 + (if description != "" then 2 + |description| else 0)
      && h[11..t] == typeName
      && h[t..t + 10] == ", default:"
      && h[t + 10..d] == defaultRepr
      && h[d] == ']'
      && h[d + 1..] == (if description != "" then ": " + description else "")
  {
    var marker := if required then "REQUIRED" else "optional";
    var tail := if description != "" then ": " + description else "";
    var h := "[" + marker + ", " + typeName + ", default:" + defaultRepr + "]" + tail;
    HelpLayout(required, typeName, defaultRepr, description, h);
    h
  }

  /** Where each field of the help sits. */
  lemma HelpLayout(required: bool, typeName: string, defaultRepr: string, description: string, h: string)
    requires var marker := if required then "REQUIRED" else "optional";
      var tail := if description != "" then ": " + description else "";
      h == "[" + marker + ", " + typeName + ", default:" + defaultRepr + "]" + tail
    ensures StartsWith(h, "[REQUIRED, ") <==> required
    ensures StartsWith(h, "[optional, ") <==> !required
    ensures var t := 11 + |typeName|;
      var d := t + 10 + |defaultRepr|;
      && |h| == d + 1 + (if description != "" then 2 + |description| else 0)
      && h[11..t] == typeName
      && h[t..t + 10] == ", default:"
      && h[t + 10..d] == defaultRepr
      && h[d] == ']'
      && h[d + 1..] == (if description != "" then ": " + description else "")
  {
    var marker := if required then "REQUIRED" else "optional";
    var tail := if description != "" then ": " + description else "";
    HelpMarker(required, typeName + ", default:" + defaultRepr + "]", tail);
    HelpFields("[" + marker + ", ", typeName, ", default:", defaultRepr, tail);
  }

  /** The marker decides which of the two prefixes the help has. */
  lemma HelpMarker(required: bool, middle: string, suffix: string)
    ensures var marker := if required then "REQUIRED" else "optional";
      var h := "[" + marker + ", " + middle + suffix;
      (StartsWith(h, "[REQUIRED, ") <==> required) && (StartsWith(h, "[optional, ") <==> !required)
  {
    var marker := if required then "REQUIRED" else "optional";
    var h := "[" + marker + ", " + middle + suffix;
    assert h[..11] == "[" + marker + ", ";
    assert h[1] == marker[0];
    assert "[REQUIRED, "[1] == 'R' && "[optional, "[1] == 'o';
  }

  /** Where each field of `open + typeName + sep + defaultRepr + "]" + tail`
      sits. */
  lemma HelpFields(open: string, typeName: string, sep: string, defaultRepr: string, tail: string)
    ensures var h := open + typeName + sep + defaultRepr + "]" + tail;
      var t := |open| + |typeName|;
      var d := t + |sep| + |defaultRepr|;
      && |h| == d + 1 + |tail|
      && h[|open|..t] == typeName
      && h[t..t + |sep|] == sep
      && h[t + |sep|..d] == defaultRepr
      && h[d] == ']'
      && h[d + 1..] == tail
  {
  }

  /** The default shown in the help: quoted for a plain `str` parameter
      (which includes an enum), bare otherwise. */
  function DefaultRepr(typing: Typing, default: Value): (r: string)
    ensures Quoted(typing) ==>
      |r| == |PyStr(default)| + 2 && r[0] == '\'' && r[|r| - 1] == '\'' && r[1..|r| - 1] == PyStr(default)
    ensures !Quoted(typing) ==> r == PyStr(default)
  {
    if Quoted(typing) then "'" + PyStr(default) + "'" else PyStr(default)
  }

  /** funcli.py:364: a default is quoted for a `str` flag that is no list. */
  predicate Quoted(typing: Typing) {
    typing.translated == Str && !IsListType(typing.original)
  }

  /** Everything but the type, once the type is known. */
  function Assemble(p: Param, doc: Option<string>, typing: Typing): ArgSpec {
    var required := p.default.None?;
    var default := p.default.GetOr(VNone);
    var repr := DefaultRepr(typing, default);
    var description := ArgDescription(p.name, doc);
    ArgSpec(p.name, required, typing, default, repr, description,
            HelpText(required, typing.typeName, repr, description),
            GetAction(typing), GetChoices(typing.original))
  }

  /** One loop iteration of funcli.py:309-390 for parameter `p` of a function
      whose docstring is `doc`, in reading `prog`. The type is worked out
      first; only then does `add_argument` reject a flag named `--help`. */
  function BuildArg(prog: Program, p: Param, doc: Option<string>): (r: Result<ArgSpec>)
    ensures r.Ok? <==> ClassifyIn(prog, p).Ok? && !ClashesWithHelp(p.name)
    ensures prog.Corrected? ==> (r.Ok? <==> Supported(p) && !ClashesWithHelp(p.name))
    ensures ClassifyIn(prog, p).Err? ==> r == Err(ClassifyIn(prog, p).error)
    ensures ClassifyIn(prog, p).Ok? && ClashesWithHelp(p.name) ==> r == Err(ConflictingOption("--help"))
    ensures r.Ok? ==> r.value.typing == ClassifyIn(prog, p).value && r.value.typing.original == DeclaredTypes(p).0
    ensures r.Ok? ==> r.value.name == p.name
    ensures r.Ok? ==> (r.value.required <==> p.default.None?)
    ensures r.Ok? ==> r.value.default == if p.default.None? then VNone else p.default.value
    ensures r.Ok? ==> r.value.description == ArgDescription(p.name, doc)
  {
    var typing :- ClassifyIn(prog, p);
    if ClashesWithHelp(p.name) then Err(ConflictingOption("--help"))
    else Ok(Assemble(p, doc, typing))
  }

  /** Every subparser is made with argparse's default `add_help=True`
      (funcli.py:300-305), so it already owns `--help`: the flag of a
      parameter named `help` conflicts with it. */
  predicate ClashesWithHelp(name: string) {
    name == "help"
  }

  // ---------------------------------------------------------------------
  // The flag on the command line (funcli.py:382-390)

  /** The option strings of the flag: `--<name>`, and for the paired flag
      also the `--no-<name>` that argparse's `BooleanOptionalAction` adds. */
  function OptionStrings(a: ArgSpec): (os: seq<string>)
    ensures |os| >= 1 && os[0] == "--" + a.name
    ensures a.action == BooleanOptional <==> |os| == 2
  {
    if a.action == BooleanOptional then ["--" + a.name, "--no-" + a.name] else ["--" + a.name]
  }

  /** The value a paired flag stores: false for its `--no-` form, true
      otherwise. */
  function PairedFlagValue(option: string): bool {
    !StartsWith(option, "--no-")
  }

  /** The two forms of a paired flag store true and false (a parameter name
      is a Python identifier, so it holds no hyphen). */
  lemma PairedFlagForms(a: ArgSpec)
    requires a.action == BooleanOptional && '-' !in a.name
    ensures PairedFlagValue(OptionStrings(a)[0]) && !PairedFlagValue(OptionStrings(a)[1])
  {
    var yes := "--" + a.name;
    var no := "--no-" + a.name;
    assert no[..5] == "--no-";
    if |yes| >= 5 {
      assert yes[4] == a.name[2];
      assert yes[..5] != "--no-" by {
        assert "--no-"[4] == '-';
      }
    }
  }

  // ---------------------------------------------------------------------
  // What classification yields, category by category

  /** The printed name of `list[T]` for a builtin scalar `T`, stripped of the
      list syntax, is the scalar's own name. */
  lemma ScalarListName(el: PyType)
    requires el == Int || el == Str || el == Bool
    ensures StripListText(TypeName(List(el))) == TypeName(el)
  {
    var x := ItemTypeRepr(el);
    OccurrenceHasChar(x, "list", 'l');
    OccurrenceHasChar(x, "list", 'i');
    StripListTextOfAlias(x);
  }

  /** A scalar parameter (`int`, `str`, `bool`, annotated or taken from the
      default) keeps its type and shows the type's name. */
  lemma ClassifyScalar(p: Param, t: PyType)
    requires t == Int || t == Str || t == Bool
    requires p.annotation == Some(t) || (p.annotation.None? && p.default.Some? && TypeOf(p.default.value) == t)
    ensures Classify(p) == Ok(Typing(t, t, TypeName(t)))
  {
  }

  /** A bare `list` (annotated, or the type of a list default) and a
      `list[list]` are handled as `list[str]`. */
  lemma ClassifyBareList(p: Param)
    requires p.annotation == Some(BareList) || p.annotation == Some(List(BareList))
      || (p.annotation.None? && p.default.Some? && p.default.value.VList?)
    ensures Classify(p).Ok?
    ensures Classify(p).value.translated == Str
    ensures Classify(p).value.typeName == "list[str]"
  {
  }

  /** `list[T]` of a builtin scalar converts each value to `T` and shows `T`'s
      name. */
  lemma ClassifyScalarList(p: Param, el: PyType)
    requires el == Int || el == Str || el == Bool
    requires p.annotation == Some(List(el))
    ensures Classify(p) == Ok(Typing(List(el), el, TypeName(el)))
  {
    ScalarListName(el);
  }

  /** An enum, or a list of an enum, is read as a string and shows the enum
      class. */
  lemma ClassifyEnum(p: Param, e: EnumType)
    requires p.annotation == Some(Enum(e)) || p.annotation == Some(List(Enum(e)))
      || (p.annotation.None? && p.default.Some? && p.default.value.VMember? && p.default.value.owner == e)
    ensures Classify(p).Ok?
    ensures Classify(p).value.translated == Str
    ensures Classify(p).value.typeName == "<enum '" + e.name + "'>"
  {
  }

  /** Where the element's printed name is plain, the source's classification
      agrees with the corrected one. */
  lemma {:induction false} ClassifyAsWrittenAgrees(mods: Modules, p: Param)
    requires p.annotation.Some? && p.annotation.value.List?
    requires var el := p.annotation.value.elem;
      el == Int || el == Str || el == Bool
      || (el.Enum? && PlainIdentifier(el.e.moduleName) && PlainIdentifier(el.e.name)
          && el.e.moduleName in mods && el.e.name in mods[el.e.moduleName]
          && mods[el.e.moduleName][el.e.name] == el)
    ensures ClassifyAsWritten(mods, p) == Classify(p)
  {
    ListElementByNameAgrees(mods, p.annotation.value.elem);
  }

  /** When the source cannot find a list's element type again from its name,
      classification fails with that error. */
  lemma ClassifyAsWrittenElementError(mods: Modules, p: Param, el: PyType)
    requires p.annotation == Some(List(el)) && el != BareList
    requires ListElementByName(mods, List(el)).Err?
    ensures ClassifyAsWritten(mods, p) == Err(ListElementByName(mods, List(el)).error)
  {
  }

  /** `list[Checklist]` for an enum `Checklist` of the main script: the
      source stops with an unresolved `__main__.Check`, where the corrected
      classification reads the list's values as `Checklist` member names. */
  lemma ChecklistParamRejected(e: EnumType, mods: Modules, p: Param)
    requires e == EnumType("__main__", "Checklist", [Member("todo", 1), Member("done", 2)])
    requires mods == map["__main__" := map["Checklist" := Enum(e)]]
    requires p.annotation == Some(List(Enum(e)))
    ensures ClassifyAsWritten(mods, p) == Err(UnresolvedType("__main__.Check"))
    ensures Classify(p) == Ok(Typing(List(Enum(e)), Str, TypeName(Enum(e))))
  {
    ChecklistElementUnresolved(e, mods);
    ClassifyAsWrittenElementError(mods, p, Enum(e));
  }

  // ---------------------------------------------------------------------
  // What the built flag looks like

  /** Action selection: `bool` (translated, so `list[bool]` too) gets the
      paired flag, any other list gets the custom append, the rest `store`. */
  lemma ActionSelection(prog: Program, p: Param, doc: Option<string>)
    requires BuildArg(prog, p, doc).Ok?
    ensures var a := BuildArg(prog, p, doc).value;
      && (a.action == BooleanOptional <==> a.typing.translated == Bool)
      && (a.action == CustomAppend <==> a.typing.translated != Bool && IsListType(DeclaredTypes(p).0))
      && (a.action == Store <==> a.typing.translated != Bool && !IsListType(DeclaredTypes(p).0))
  {
  }

  /** A `bool` parameter, and a `list[bool]` one, gets the `--x/--no-x` flag
      unless it is named `help`. */
  lemma BoolFlagAction(p: Param, doc: Option<string>)
    requires p.annotation == Some(Bool) || p.annotation == Some(List(Bool))
    ensures BuildArg(Corrected, p, doc).Ok? <==> !ClashesWithHelp(p.name)
    ensures BuildArg(Corrected, p, doc).Ok? ==> BuildArg(Corrected, p, doc).value.action == BooleanOptional
  {
    if p.annotation == Some(List(Bool)) {
      ScalarListName(Bool);
    }
  }

  /** The choice set is present exactly for an enum or a list of an enum, and
      lists the member names in declaration order. */
  lemma ChoicesAreMemberNames(prog: Program, p: Param, doc: Option<string>)
    requires BuildArg(prog, p, doc).Ok?
    ensures var a := BuildArg(prog, p, doc).value;
      && (a.choices.Some? <==> FinalType(DeclaredTypes(p).0).Enum?)
      && (a.choices.Some? ==> a.choices.value == MemberNames(FinalType(DeclaredTypes(p).0).e))
  {
  }

  /** The default shown in the help is quoted exactly for a `str` or an enum
      parameter; the default itself is `str()`-rendered either way. */
  lemma DefaultQuoting(prog: Program, p: Param, doc: Option<string>)
    requires BuildArg(prog, p, doc).Ok?
    ensures var a := BuildArg(prog, p, doc).value;
      var o := DeclaredTypes(p).0;
      && (o == Str || o.Enum? ==> a.defaultRepr == "'" + PyStr(a.default) + "'")
      && (o != Str && !o.Enum? ==> a.defaultRepr == PyStr(a.default))
  {
  }

  /** The help line of a built flag: the marker, the flag's type name, its
      rendered default in brackets, then the description when the docstring
      has one. */
  lemma HelpShape(prog: Program, p: Param, doc: Option<string>)
    requires BuildArg(prog, p, doc).Ok?
    ensures var a := BuildArg(prog, p, doc).value;
      var t := 11 + |a.typing.typeName|;
      var d := t + 10 + |a.defaultRepr|;
      && (StartsWith(a.help, "[REQUIRED, ") <==> p.default.None?)
      && (StartsWith(a.help, "[optional, ") <==> p.default.Some?)
      && |a.help| == d + 1 + (if a.description != "" then 2 + |a.description| else 0)
      && a.help[11..t] == a.typing.typeName
      && a.help[t..t + 10] == ", default:"
      && a.help[t + 10..d] == a.defaultRepr
      && a.help[d] == ']'
      && a.help[d + 1..] == (if a.description != "" then ": " + a.description else "")
  {
    BuiltHelp(prog, p, doc);
    AssembledHelp(BuildArg(prog, p, doc).value);
  }

  /** A built flag's help is rendered from its own fields. */
  lemma BuiltHelp(prog: Program, p: Param, doc: Option<string>)
    requires BuildArg(prog, p, doc).Ok?
    ensures var a := BuildArg(prog, p, doc).value;
      a.help == HelpText(a.required, a.typing.typeName, a.defaultRepr, a.description)
  {
    var a := Assemble(p, doc, ClassifyIn(prog, p).value);
    assert BuildArg(prog, p, doc).value == a;
  }

  /** The help fields of a flag whose help was rendered from its own
      fields. */
  lemma AssembledHelp(a: ArgSpec)
    requires a.help == HelpText(a.required, a.typing.typeName, a.defaultRepr, a.description)
    ensures var t := 11 + |a.typing.typeName|;
      var d := t + 10 + |a.defaultRepr|;
      && (StartsWith(a.help, "[REQUIRED, ") <==> a.required)
      && (StartsWith(a.help, "[optional, ") <==> !a.required)
      && |a.help| == d + 1 + (if a.description != "" then 2 + |a.description| else 0)
      && a.help[11..t] == a.typing.typeName
      && a.help[t..t + 10] == ", default:"
      && a.help[t + 10..d] == a.defaultRepr
      && a.help[d] == ']'
      && a.help[d + 1..] == (if a.description != "" then ": " + a.description else "")
  {
  }

  // ---------------------------------------------------------------------
  // The two readings side by side

  /** Where the readings classify a parameter alike they build the same
      flag, and where the source's classification fails its flag fails
      with that error. */
  lemma BuildArgReadings(mods: Modules, p: Param, doc: Option<string>)
    ensures ClassifyAsWritten(mods, p) == Classify(p) ==>
      BuildArg(AsWritten(mods), p, doc) == BuildArg(Corrected, p, doc)
    ensures ClassifyAsWritten(mods, p).Err? ==>
      BuildArg(AsWritten(mods), p, doc) == Err(ClassifyAsWritten(mods, p).error)
  {
  }

  /** `c: list[Checklist]`: as written, translating the parameter stops with
      the unresolved `__main__.Check`; corrected, it gets a flag whose values
      are `Checklist` member names (unless it is named `help`). */
  lemma ChecklistFlag(e: EnumType, mods: Modules, p: Param, doc: Option<string>)
    requires e == EnumType("__main__", "Checklist", [Member("todo", 1), Member("done", 2)])
    requires mods == map["__main__" := map["Checklist" := Enum(e)]]
    requires p.annotation == Some(List(Enum(e)))
    ensures BuildArg(AsWritten(mods), p, doc) == Err(UnresolvedType("__main__.Check"))
    ensures BuildArg(Corrected, p, doc).Ok? <==> !ClashesWithHelp(p.name)
    ensures BuildArg(Corrected, p, doc).Ok? ==> BuildArg(Corrected, p, doc).value.choices == Some(["todo", "done"])
  {
    ChecklistParamRejected(e, mods, p);
    BuildArgReadings(mods, p, doc);
    if !ClashesWithHelp(p.name) {
      EnumListChoices(e, p, doc);
      ChecklistNames(e);
    }
  }

  /** The members of `Checklist`, by name. */
  lemma ChecklistNames(e: EnumType)
    requires e == EnumType("__main__", "Checklist", [Member("todo", 1), Member("done", 2)])
    ensures MemberNames(e) == ["todo", "done"]
  {
  }

  /** A `list[E]` flag that builds offers the names of `E`'s members. */
  lemma EnumListChoices(e: EnumType, p: Param, doc: Option<string>)
    requires p.annotation == Some(List(Enum(e)))
    requires BuildArg(Corrected, p, doc).Ok?
    ensures BuildArg(Corrected, p, doc).value.choices == Some(MemberNames(e))
  {
    var a := BuildArg(Corrected, p, doc).value;
    assert a.typing.original == List(Enum(e));
    assert FinalType(List(Enum(e))) == Enum(e);
  }
}

=== FILE: dispatch.dfy ===
/** The re-coercion of parsed values before the call (funcli.py:471-497):
    enum arguments, and each element of a list-of-enum argument, are looked up
    by member name; everything else passes through. */
module Dispatch {
  import opened Results
  import opened PyModel
  import opened TypeNames
  import opened ArgSpecs

  /** `E[name]`: the member of that name (enum member names are unique, so
      the first match is the only one). */
  function MemberNamed(members: seq<Member>, name: string): (r: Option<Member>)
    ensures r.Some? <==> exists i :: 0 <= i < |members| && members[i].name == name
    ensures r.Some? ==> r.value in members && r.value.name == name
  {
    if members == [] then None
    else if members[0].name == name then Some(members[0])
    else
      var r := MemberNamed(members[1..], name);
      assert forall i :: 1 <= i < |members| ==> members[i] == members[1..][i - 1];
      r
  }

  /** `arg.is_enum()` for an argument that was built: its final type is an
      enum. */
  predicate IsEnumArg(a: ArgSpec) {
    FinalType(a.typing.original).Enum?
  }

  /** The enum a choice-restricted argument draws its members from. */
  function EnumOf(a: ArgSpec): EnumType
    requires IsEnumArg(a)
  {
    FinalType(a.typing.original).e
  }

  /** `cast_value(arg, value)`: an enum argument keeps a value that is already
      a member and looks anything else up by name (a failed lookup is the
      `KeyError` of `E[value]`); any other argument keeps its value. */
  function CastValue(a: ArgSpec, v: Value): (r: Result<Value>)
    ensures !IsEnumArg(a) ==> r == Ok(v)
    ensures IsEnumArg(a) && v.VMember? ==> r == Ok(v)
    ensures IsEnumArg(a) && !v.VMember? && r.Ok? ==>
      v.VStr? && r.value.VMember? && r.value.owner == EnumOf(a)
      && r.value.member in EnumOf(a).members && r.value.member.name == v.s
    ensures IsEnumArg(a) && v.VStr? ==>
      (r.Ok? <==> exists i :: 0 <= i < |EnumOf(a).members| && EnumOf(a).members[i].name == v.s)
  {
    if !IsEnumArg(a) || v.VMember? then Ok(v)
    else if v.VStr? then
      match MemberNamed(EnumOf(a).members, v.s)
      case Some(m) => Ok(VMember(EnumOf(a), m))
      case None => Err(UnknownMember)
    else Err(UnknownMember)
  }

  /** `for item in value`: a list yields its items, a string its characters;
      anything else is not iterable. */
  function Iterate(v: Value): (r: Result<seq<Value>>)
    ensures r.Ok? <==> v.VList? || v.VStr?
    ensures v.VList? ==> r == Ok(v.items)
    ensures v.VStr? ==> (r.Ok? && |r.value| == |v.s|
      && forall i :: 0 <= i < |v.s| ==> r.value[i] == VStr([v.s[i]]))
  {
    match v
    case VList(xs) => Ok(xs)
    case VStr(s) => Ok(seq(|s|, i requires 0 <= i < |s| => VStr([s[i]])))
    case _ => Err(NotIterable)
  }

  /** The loop building `list_tmp`: every item cast in turn; the first failing
      cast stops it. */
  function CastAll(a: ArgSpec, xs: seq<Value>): (r: Result<seq<Value>>)
    ensures r.Ok? <==> forall i :: 0 <= i < |xs| ==> CastValue(a, xs[i]).Ok?
    ensures r.Ok? ==> |r.value| == |xs|
    ensures r.Ok? ==> forall i :: 0 <= i < |xs| ==> r.value[i] == CastValue(a, xs[i]).value
  {
    MapResult(xs, x => CastValue(a, x))
  }

  /** Re-coercion of one parsed value as the source writes it: a list argument
      iterates its value, whatever the value is. */
  function CastArgAsWritten(a: ArgSpec, v: Value): (r: Result<Value>)
    ensures !IsListType(a.typing.original) ==> r == CastValue(a, v)
    ensures IsListType(a.typing.original) && !v.VList? && !v.VStr? ==> r == Err(NotIterable)
    ensures IsListType(a.typing.original) && v.VList? ==>
      (r.Ok? <==> forall i :: 0 <= i < |v.items| ==> CastValue(a, v.items[i]).Ok?)
    ensures IsListType(a.typing.original) && v.VList? && r.Ok? ==>
      r.value.VList? && |r.value.items| == |v.items|
      && forall i :: 0 <= i < |v.items| ==> r.value.items[i] == CastValue(a, v.items[i]).value
  {
    if IsListType(a.typing.original) then
      var items :- Iterate(v);
      var cast :- CastAll(a, items);
      Ok(VList(cast))
    else CastValue(a, v)
  }

  /** Re-coercion of one parsed value with a `None` (the default of an
      optional parameter that was not supplied) handed to the function as is. */
  function CastArg(a: ArgSpec, v: Value): (r: Result<Value>)
    ensures v == VNone ==> r == Ok(VNone)
    ensures v != VNone ==> r == CastArgAsWritten(a, v)
  {
    if v == VNone then Ok(VNone) else CastArgAsWritten(a, v)
  }

  /** The re-coercion of the chosen reading. */
  function CastIn(prog: Program, a: ArgSpec, v: Value): Result<Value> {
    match prog
    case AsWritten(_) => CastArgAsWritten(a, v)
    case Corrected => CastArg(a, v)
  }

  /** The readings re-coerce every value but `None` alike. */
  lemma CastReadings(mods: Modules, a: ArgSpec, v: Value)
    ensures v != VNone ==> CastIn(AsWritten(mods), a, v) == CastIn(Corrected, a, v)
    ensures CastIn(Corrected, a, VNone) == Ok(VNone)
    ensures !IsEnumArg(a) && !IsListType(a.typing.original) ==> CastIn(AsWritten(mods), a, VNone) == Ok(VNone)
  {
  }

  /** `fun.args[key]`. */
  function FindArg(args: seq<ArgSpec>, key: string): (r: Option<ArgSpec>)
    ensures r.Some? <==> exists i :: 0 <= i < |args| && args[i].name == key
    ensures r.Some? ==> r.value in args && r.value.name == key
  {
    if args == [] then None
    else if args[0].name == key then Some(args[0])
    else
      var r := FindArg(args[1..], key);
      assert forall i :: 1 <= i < |args| ==> args[i] == args[1..][i - 1];
      r
  }

  /** One entry of the parsed mapping: its argument is looked up by key and
      its value re-coerced; the key stays. */
  function RecoerceEntry(prog: Program, args: seq<ArgSpec>, entry: (string, Value)): (r: Result<(string, Value)>)
    ensures r.Ok? <==> FindArg(args, entry.0).Some? && CastIn(prog, FindArg(args, entry.0).value, entry.1).Ok?
    ensures r.Ok? ==> r.value == (entry.0, CastIn(prog, FindArg(args, entry.0).value, entry.1).value)
    ensures FindArg(args, entry.0).None? ==> r == Err(MissingKey(entry.0))
    ensures FindArg(args, entry.0).Some? && r.Err? ==> r == Err(CastIn(prog, FindArg(args, entry.0).value, entry.1).error)
  {
    match FindArg(args, entry.0)
    case None => Err(MissingKey(entry.0))
    case Some(a) =>
      var v :- CastIn(prog, a, entry.1);
      Ok((entry.0, v))
  }

  /** The re-coercion loop over the parsed mapping, in its order; the first
      entry that fails stops it with its error. */
  function Recoerce(prog: Program, args: seq<ArgSpec>, parsed: seq<(string, Value)>): (r: Result<seq<(string, Value)>>)
    ensures r.Ok? ==> |r.value| == |parsed|
    ensures r.Ok? ==> forall i :: 0 <= i < |parsed| ==> r.value[i].0 == parsed[i].0
    ensures r.Ok? <==> forall i :: 0 <= i < |parsed| ==>
      FindArg(args, parsed[i].0).Some? && CastIn(prog, FindArg(args, parsed[i].0).value, parsed[i].1).Ok?
    ensures r.Ok? ==> forall i :: 0 <= i < |parsed| ==>
      r.value[i].1 == CastIn(prog, FindArg(args, parsed[i].0).value, parsed[i].1).value
    ensures r.Err? ==> exists i :: (0 <= i < |parsed| && RecoerceEntry(prog, args, parsed[i]) == Err(r.error)
      && forall j :: 0 <= j < i ==> RecoerceEntry(prog, args, parsed[j]).Ok?)
  {
    MapResult(parsed, entry => RecoerceEntry(prog, args, entry))
  }

  /** Without a `None` among the parsed values the two readings hand the
      function the same arguments. */
  lemma RecoerceReadings(mods: Modules, args: seq<ArgSpec>, parsed: seq<(string, Value)>)
    requires forall i :: 0 <= i < |parsed| ==> parsed[i].1 != VNone
    ensures Recoerce(AsWritten(mods), args, parsed) == Recoerce(Corrected, args, parsed)
  {
    var f := entry => RecoerceEntry(AsWritten(mods), args, entry);
    var g := entry => RecoerceEntry(Corrected, args, entry);
    forall i | 0 <= i < |parsed|
      ensures f(parsed[i]) == g(parsed[i])
    {
      if FindArg(args, parsed[i].0).Some? {
        CastReadings(mods, FindArg(args, parsed[i].0).value, parsed[i].1);
      }
    }
    MapResultExt(parsed, f, g);
  }

  // ---------------------------------------------------------------------
  // Properties of the re-coercion

  /** A list value keeps its length and order: item `i` of the result is item
      `i` of the value, cast. */
  lemma ListCastKeepsShape(a: ArgSpec, xs: seq<Value>)
    requires IsListType(a.typing.original)
    ensures CastArg(a, VList(xs)).Ok? <==> forall i :: 0 <= i < |xs| ==> CastValue(a, xs[i]).Ok?
    ensures CastArg(a, VList(xs)).Ok? ==>
      var ys := CastArg(a, VList(xs)).value;
      ys.VList? && |ys.items| == |xs|
      && forall i :: 0 <= i < |xs| ==> ys.items[i] == CastValue(a, xs[i]).value
  {
  }

  /** Values of an argument that is neither an enum nor a list of one reach
      the function unchanged: a list value item by item, anything else as a
      whole. */
  lemma NonEnumPassesThrough(a: ArgSpec, v: Value)
    requires !IsEnumArg(a)
    requires !IsListType(a.typing.original) || v.VList? || v == VNone
    ensures CastArg(a, v) == Ok(v)
  {
    if v.VList? && IsListType(a.typing.original) {
      var ys := CastAll(a, v.items).value;
      assert ys == v.items;
    }
  }

  /** A string is looked up exactly when it is one of the member names. */
  lemma LookupIffMemberName(a: ArgSpec, s: string)
    requires IsEnumArg(a)
    ensures CastValue(a, VStr(s)).Ok? <==> s in MemberNames(EnumOf(a))
  {
    var names := MemberNames(EnumOf(a));
    if s in names {
      var i :| 0 <= i < |names| && names[i] == s;
      assert EnumOf(a).members[i].name == s;
    }
  }

  /** The names an enum argument's lookup accepts are exactly its choice set. */
  lemma EnumLookupMatchesChoices(prog: Program, p: Param, doc: Option<string>, s: string)
    requires BuildArg(prog, p, doc).Ok? && IsEnumArg(BuildArg(prog, p, doc).value)
    ensures var a := BuildArg(prog, p, doc).value;
      a.choices.Some? && (CastValue(a, VStr(s)).Ok? <==> s in a.choices.value)
  {
    ChoicesAreMemberNames(prog, p, doc);
    LookupIffMemberName(BuildArg(prog, p, doc).value, s);
  }

  /** Member names that identify their member. */
  predicate UniqueNames(e: EnumType) {
    forall i, j :: 0 <= i < |e.members| && 0 <= j < |e.members| && e.members[i].name == e.members[j].name ==> i == j
  }

  /** Each member's name is looked up to that member, in a list as well as on
      its own. */
  lemma EnumNameRoundTrip(a: ArgSpec, k: nat)
    requires IsEnumArg(a) && UniqueNames(EnumOf(a)) && k < |EnumOf(a).members|
    ensures CastValue(a, VStr(EnumOf(a).members[k].name)) == Ok(VMember(EnumOf(a), EnumOf(a).members[k]))
  {
    var e := EnumOf(a);
    var m := MemberNamed(e.members, e.members[k].name).value;
    var j :| 0 <= j < |e.members| && e.members[j] == m;
  }

  // ---------------------------------------------------------------------
  // An optional list or enum parameter defaulting to `None`

  /** As written, a list parameter whose default is `None` and which is not
      supplied fails at the call: `enumerate(None)` is a `TypeError`. The
      corrected re-coercion hands the function its `None`. */
  lemma NoneListDefault(prog: Program, p: Param, doc: Option<string>)
    requires BuildArg(prog, p, doc).Ok? && p.annotation.Some? && IsListType(p.annotation.value)
    requires p.default == Some(VNone)
    ensures var a := BuildArg(prog, p, doc).value;
      CastArgAsWritten(a, a.default) == Err(NotIterable) && CastArg(a, a.default) == Ok(VNone)
  {
  }

  /** As written, an enum parameter whose default is `None` and which is not
      supplied fails at the call: `E[None]` is a `KeyError`. The corrected
      re-coercion hands the function its `None`. */
  lemma NoneEnumDefault(prog: Program, p: Param, doc: Option<string>, e: EnumType)
    requires p.annotation == Some(Enum(e)) && p.default == Some(VNone)
    ensures BuildArg(prog, p, doc).Ok? <==> !ClashesWithHelp(p.name)
    ensures BuildArg(prog, p, doc).Ok? ==> var a := BuildArg(prog, p, doc).value;
      CastArgAsWritten(a, a.default) == Err(UnknownMember) && CastArg(a, a.default) == Ok(VNone)
  {
    ElementUnused(prog, p);
  }
}

=== FILE: docstrings.dfy ===
/** The two line-oriented docstring scanners of `fun_to_cli`:
    `get_arg_description` (funcli.py:192-223) and
    `extract_description_from_docstring` (funcli.py:225-234). */
module Docstrings {
  import opened Results
  import opened PyText

  const ParamMarker := ":param "
  const ReturnMarker := ":return:"

  /** The tag that opens a parameter's description, `:param <name>:`. */
  function ParamTag(name: string): string {
    ParamMarker + name + ":"
  }

  // ---------------------------------------------------------------------
  // get_arg_description

  /** The loop of `get_arg_description` over the remaining lines; `found` is
      `arg_found`. The result is the text accumulated before the final strip. */
  function ScanParam(lines: seq<string>, tag: string, found: bool): string
    requires tag != []
  {
    if lines == [] then ""
    else
      var line := lines[0];
      if Contains(line, tag) then
        Strip(ReplaceAll(line, tag, "")) + "\n" + ScanParam(lines[1..], tag, true)
      else if found && !Contains(line, ParamMarker) && !Contains(line, ReturnMarker) then
        Strip(line) + "\n" + ScanParam(lines[1..], tag, true)
      else if found && Contains(line, ParamMarker) then
        ""
      else
        ScanParam(lines[1..], tag, found)
  }

  /** `get_arg_description(name, doc)`; `None` is a missing docstring. */
  function ArgDescription(name: string, doc: Option<string>): (r: string)
    ensures IsStripped(r)
    ensures doc == None || doc == Some("") ==> r == ""
  {
    if doc.None? || doc.value == "" then ""
    else Strip(ScanParam(SplitLines(doc.value), ParamTag(name), false))
  }

  /** A line that opens some other parameter's description. */
  predicate OpensOther(line: string, tag: string) {
    Contains(line, ParamMarker) && !Contains(line, tag)
  }

  /** What one line of a parameter's description section contributes: the
      tag line without its tag, a `:return:` line nothing, any other line its
      stripped text; each contribution ends with a line separator. */
  function Piece(line: string, tag: string): string
    requires tag != []
  {
    if Contains(line, tag) then Strip(ReplaceAll(line, tag, "")) + "\n"
    else if Contains(line, ReturnMarker) then ""
    else Strip(line) + "\n"
  }

  function Pieces(lines: seq<string>, tag: string): string
    requires tag != []
  {
    if lines == [] then "" else Piece(lines[0], tag) + Pieces(lines[1..], tag)
  }

  lemma ConcatTail(a: seq<string>, b: seq<string>)
    requires a != []
    ensures (a + b)[0] == a[0] && (a + b)[1..] == a[1..] + b
  {
  }

  /** One step of the scan over a line without the tag, before the section. */
  lemma ScanStepUntagged(lines: seq<string>, tag: string)
    requires tag != [] && lines != [] && !Contains(lines[0], tag)
    ensures ScanParam(lines, tag, false) == ScanParam(lines[1..], tag, false)
  {
  }

  /** One step of the scan over a line of the section. */
  lemma ScanStepInSection(lines: seq<string>, tag: string)
    requires tag != [] && lines != [] && !OpensOther(lines[0], tag)
    ensures ScanParam(lines, tag, true) == Piece(lines[0], tag) + ScanParam(lines[1..], tag, true)
  {
  }

  lemma {:induction false} ScanSkipsUntagged(before: seq<string>, rest: seq<string>, tag: string)
    requires tag != []
    requires forall k :: 0 <= k < |before| ==> !Contains(before[k], tag)
    ensures ScanParam(before + rest, tag, false) == ScanParam(rest, tag, false)
    decreases |before|
  {
    if before != [] {
      ConcatTail(before, rest);
      ScanStepUntagged(before + rest, tag);
      var tail := before[1..];
      assert forall k :: 0 <= k < |tail| ==> !Contains(tail[k], tag) by {
        forall k | 0 <= k < |tail|
          ensures !Contains(tail[k], tag)
        {
          assert tail[k] == before[k + 1];
        }
      }
      ScanSkipsUntagged(tail, rest, tag);
    } else {
      assert before + rest == rest;
    }
  }

  lemma {:induction false} ScanCollectsSection(body: seq<string>, rest: seq<string>, tag: string)
    requires tag != []
    requires forall k :: 0 <= k < |body| ==> !OpensOther(body[k], tag)
    requires rest == [] || OpensOther(rest[0], tag)
    ensures ScanParam(body + rest, tag, true) == Pieces(body, tag)
    decreases |body|
  {
    if body != [] {
      ConcatTail(body, rest);
      ScanStepInSection(body + rest, tag);
      var tail := body[1..];
      assert forall k :: 0 <= k < |tail| ==> !OpensOther(tail[k], tag) by {
        forall k | 0 <= k < |tail|
          ensures !OpensOther(tail[k], tag)
        {
          assert tail[k] == body[k + 1];
        }
      }
      ScanCollectsSection(tail, rest, tag);
    } else {
      assert body + rest == rest;
    }
  }

  lemma ScanFromTagLine(first: string, body: seq<string>, rest: seq<string>, tag: string)
    requires tag != [] && Contains(first, tag)
    requires forall k :: 0 <= k < |body| ==> !OpensOther(body[k], tag)
    requires rest == [] || OpensOther(rest[0], tag)
    ensures ScanParam([first] + (body + rest), tag, false) == Pieces([first] + body, tag)
  {
    var all := [first] + (body + rest);
    assert all[0] == first && all[1..] == body + rest;
    ScanCollectsSection(body, rest, tag);
    assert ScanParam(all, tag, false) == Piece(first, tag) + Pieces(body, tag);
    var sec := [first] + body;
    assert sec[0] == first && sec[1..] == body;
  }

  lemma Regroup(a: seq<string>, x: string, b: seq<string>, c: seq<string>)
    ensures a + [x] + b + c == a + ([x] + (b + c))
  {
  }

  lemma ScanFindsSection(lines: seq<string>, tag: string, before: seq<string>, first: string,
                         body: seq<string>, rest: seq<string>)
    requires tag != []
    requires lines == before + [first] + body + rest
    requires forall k :: 0 <= k < |before| ==> !Contains(before[k], tag)
    requires Contains(first, tag)
    requires forall k :: 0 <= k < |body| ==> !OpensOther(body[k], tag)
    requires rest == [] || OpensOther(rest[0], tag)
    ensures ScanParam(lines, tag, false) == Pieces([first] + body, tag)
  {
    var section := [first] + (body + rest);
    Regroup(before, first, body, rest);
    ScanSkipsUntagged(before, section, tag);
    ScanFromTagLine(first, body, rest, tag);
  }

  /** A parameter's description is exactly its section: the lines from the
      first line holding its tag up to (not including) the next line that
      opens another parameter, the tag removed, `:return:` lines dropped, each
      line stripped, and the whole stripped. Lines before the tag and from the
      next parameter on play no part. */
  lemma ArgDescriptionIsSection(name: string, doc: string,
                                before: seq<string>, first: string,
                                body: seq<string>, rest: seq<string>)
    requires SplitLines(doc) == before + [first] + body + rest
    requires forall k :: 0 <= k < |before| ==> !Contains(before[k], ParamTag(name))
    requires Contains(first, ParamTag(name))
    requires forall k :: 0 <= k < |body| ==> !OpensOther(body[k], ParamTag(name))
    requires rest == [] || OpensOther(rest[0], ParamTag(name))
    ensures ArgDescription(name, Some(doc)) == Strip(Pieces([first] + body, ParamTag(name)))
  {
    ScanFindsSection(SplitLines(doc), ParamTag(name), before, first, body, rest);
  }

  /** A parameter whose tag line holds nothing but indentation and the tag,
      and whose next line opens another parameter (or is missing), has an
      empty description: the tag line contributes only a line separator,
      which the final strip removes. */
  lemma {:induction false} TaggedWithoutText(name: string, doc: string, before: seq<string>, pad: string, rest: seq<string>)
    requires SplitLines(doc) == before + [pad + ParamTag(name)] + rest
    requires forall k :: 0 <= k < |before| ==> !Contains(before[k], ParamTag(name))
    requires forall k :: 0 <= k < |pad| ==> IsSpace(pad[k])
    requires rest == [] || OpensOther(rest[0], ParamTag(name))
    ensures ArgDescription(name, Some(doc)) == ""
  {
    BareTagScan(before, pad, rest, ParamTag(name));
    StripNewline();
  }

  /** The scan over such a docstring collects just the tag line's separator. */
  lemma {:induction false} BareTagScan(before: seq<string>, pad: string, rest: seq<string>, tag: string)
    requires tag != [] && tag[0] == ':'
    requires forall k :: 0 <= k < |before| ==> !Contains(before[k], tag)
    requires forall k :: 0 <= k < |pad| ==> IsSpace(pad[k])
    requires rest == [] || OpensOther(rest[0], tag)
    ensures ScanParam(before + [pad + tag] + rest, tag, false) == "\n"
  {
    var first := pad + tag;
    assert before + [first] + rest == before + [first] + [] + rest;
    BareTagLine(pad, tag);
    ScanFindsSection(before + [first] + rest, tag, before, first, [], rest);
    assert [first] + [] == [first];
  }

  lemma StripNewline()
    ensures Strip("\n") == ""
  {
    StripEmptyIffBlank("\n");
  }

  /** A line of indentation and a tag holds the tag and contributes only a
      line separator. */
  lemma {:induction false} BareTagLine(pad: string, tag: string)
    requires tag != [] && tag[0] == ':'
    requires forall k :: 0 <= k < |pad| ==> IsSpace(pad[k])
    ensures Contains(pad + tag, tag)
    ensures Pieces([pad + tag], tag) == "\n"
  {
    ContainsAtEnd(pad, tag);
    assert ':' !in pad;
    RemoveTrailing(pad, tag);
    StripEmptyIffBlank(pad);
    var line := pad + tag;
    assert Piece(line, tag) == Strip(pad) + "\n";
  }

  lemma {:induction false} ScanWithoutTag(lines: seq<string>, tag: string)
    requires tag != []
    requires forall k :: 0 <= k < |lines| ==> !Contains(lines[k], tag)
    ensures ScanParam(lines, tag, false) == ""
    decreases |lines|
  {
    if lines != [] {
      ScanWithoutTag(lines[1..], tag);
    }
  }

  /** A parameter the docstring never tags has an empty description. */
  lemma UntaggedParamHasNoDescription(name: string, doc: string)
    requires forall k :: 0 <= k < |SplitLines(doc)| ==> !Contains(SplitLines(doc)[k], ParamTag(name))
    ensures ArgDescription(name, Some(doc)) == ""
  {
    if doc != "" {
      ScanWithoutTag(SplitLines(doc), ParamTag(name));
    }
  }

  // ---------------------------------------------------------------------
  // extract_description_from_docstring

  /** A line whose stripped text starts a parameter or return tag. */
  predicate EndsDescription(line: string) {
    var l := Strip(line);
    StartsWith(l, ParamMarker) || StartsWith(l, ReturnMarker)
  }

  /** The loop of `extract_description_from_docstring`. */
  function DescriptionLines(lines: seq<string>): string {
    if lines == [] then ""
    else if EndsDescription(lines[0]) then ""
    else Strip(lines[0]) + "\n" + DescriptionLines(lines[1..])
  }

  /** `extract_description_from_docstring(doc)`. */
  function FunctionDescription(doc: string): (r: string)
    ensures IsStripped(r)
    ensures doc == "" ==> r == ""
  {
    Strip(DescriptionLines(SplitLines(doc)))
  }

  /** Every line, stripped and terminated. */
  function StrippedLines(lines: seq<string>): string {
    if lines == [] then "" else Strip(lines[0]) + "\n" + StrippedLines(lines[1..])
  }

  /** One step of the loop over a line that does not end the description. */
  lemma DescriptionLinesStep(lines: seq<string>)
    requires lines != [] && !EndsDescription(lines[0])
    ensures DescriptionLines(lines) == Strip(lines[0]) + "\n" + DescriptionLines(lines[1..])
  {
  }

  lemma {:induction false} DescriptionLinesSplit(head: seq<string>, tail: seq<string>)
    requires forall k :: 0 <= k < |head| ==> !EndsDescription(head[k])
    requires tail == [] || EndsDescription(tail[0])
    ensures DescriptionLines(head + tail) == StrippedLines(head)
    decreases |head|
  {
    var all := head + tail;
    if head == [] {
      assert all == tail;
    } else {
      var rest := head[1..];
      assert forall k :: 0 <= k < |rest| ==> !EndsDescription(rest[k]) by {
        forall k | 0 <= k < |rest|
          ensures !EndsDescription(rest[k])
        {
          assert rest[k] == head[k + 1];
        }
      }
      DescriptionLinesSplit(rest, tail);
      ConcatTail(head, tail);
      DescriptionLinesStep(all);
    }
  }

  /** The function description is the stripped text of every line before the
      first line that starts with `:param ` or `:return:`; nothing from that
      line on contributes. */
  lemma FunctionDescriptionIsPreamble(doc: string, head: seq<string>, tail: seq<string>)
    requires SplitLines(doc) == head + tail
    requires forall k :: 0 <= k < |head| ==> !EndsDescription(head[k])
    requires tail == [] || EndsDescription(tail[0])
    ensures FunctionDescription(doc) == Strip(StrippedLines(head))
  {
    DescriptionLinesSplit(head, tail);
  }
}

=== FILE: invocation.dfy ===
/** The run-time half of `fun_to_cli`: the script metadata and version line
    (funcli.py:245-277), the argv handed to the parser (funcli.py:416-435),
    the parsed namespace and the choice of the function to call
    (funcli.py:440-497), and the message of a reported `ArgError`
    (funcli.py:42-46, 504-511). */
module Invocation {
  import opened Results
  import opened PyText
  import opened PyModel
  import opened TypeNames
  import opened ArgSpecs
  import opened Dispatch
  import opened Registry

  // ---------------------------------------------------------------------
  // Script metadata

  /** What `from __main__ import ...` finds: `None` where the main script
      does not define the attribute. */
  datatype Metadata = Metadata(
    appName: Option<string>,
    version: Option<string>,
    author: Option<string>,
    doc: Option<string>)

  const AnonymousScript := "Anonymous script"
  const AnonymousAuthor := "Anonymous author"

  /** `__app_name__`, with "__main__" (or no name) read as anonymous. */
  function AppName(m: Metadata): (n: string)
    ensures m.appName.None? || m.appName == Some("__main__") ==> n == AnonymousScript
    ensures m.appName.Some? && m.appName != Some("__main__") ==> n == m.appName.value
  {
    if m.appName.None? || m.appName.value == "__main__" then AnonymousScript else m.appName.value
  }

  /** `__version__`, else the joined `("0", "0", "0")`. */
  function Version(m: Metadata): (v: string)
    ensures m.version.Some? ==> v == m.version.value
    ensures m.version.None? ==> v == "0.0.0"
  {
    JoinedZeros();
    m.version.GetOr(Join(".", ["0", "0", "0"]))
  }

  lemma JoinedZeros()
    ensures Join(".", ["0", "0", "0"]) == "0.0.0"
  {
    assert Join(".", ["0"]) == "0";
    assert ["0", "0", "0"][1..] == ["0", "0"];
    assert ["0", "0"][1..] == ["0"];
  }

  function Author(m: Metadata): string {
    m.author.GetOr(AnonymousAuthor)
  }

  /** `module_version_repr`: `<name> version:<version> by <author>`, the
      three fields at fixed places. */
  function VersionLine(m: Metadata): (line: string)
    ensures var head := AppName(m) + " version:";
      var v := Version(m);
      && |line| == |head| + |v| + |" by " + Author(m)|
      && line[..|head|] == head
      && line[|head|..|head| + |v|] == v
      && line[|head| + |v|..] == " by " + Author(m)
  {
    var head := AppName(m) + " version:";
    var tail := " by " + Author(m);
    var line := head + Version(m) + tail;
    assert line[..|head|] == head;
    assert line[|head|..|head| + |Version(m)|] == Version(m);
    assert line[|head| + |Version(m)|..] == tail;
    line
  }

  /** The parser's description: the version line, a line break, then the
      script's docstring (empty when it has none). */
  function ModuleDoc(m: Metadata): (d: string)
    ensures var line := VersionLine(m);
      && |d| == |line| + 1 + |m.doc.GetOr("")|
      && d[..|line|] == line
      && d[|line|] == '\n'
      && d[|line| + 1..] == m.doc.GetOr("")
  {
    var line := VersionLine(m);
    var doc := m.doc.GetOr("");
    var d := line + "\n" + doc;
    assert d[..|line|] == line;
    assert d[|line| + 1..] == doc;
    d
  }

  /** Missing metadata reads as "Anonymous script version:0.0.0 by
      Anonymous author". */
  lemma AnonymousVersionLine(m: Metadata)
    requires m.appName.None? && m.version.None? && m.author.None?
    ensures VersionLine(m) == AnonymousScript + " version:0.0.0 by " + AnonymousAuthor
  {
    var line := VersionLine(m);
    var head := AnonymousScript + " version:";
    assert line == line[..|head|] + line[|head|..|head| + 5] + line[|head| + 5..];
  }

  // ---------------------------------------------------------------------
  // Default-subcommand injection

  /** The flags that make the parser read argv as given. */
  const SpecialFlags: seq<string> := ["-h", "--help", "--full-help", "--version"]

  predicate HasSpecialFlag(argv: seq<string>) {
    exists k :: 0 <= k < |SpecialFlags| && SpecialFlags[k] in argv
  }

  /** `sys.argv[1:]`. */
  function Args(argv: seq<string>): seq<string> {
    if argv == [] then [] else argv[1..]
  }

  /** What the parser is given: the arguments as they are when the first one
      names a function or a help/version flag occurs anywhere in argv, and
      otherwise the arguments behind the default function's name. */
  function ArgvToParse(argv: seq<string>, names: seq<string>, default: string): (r: seq<string>)
    ensures |argv| >= 2 && argv[1] in names ==> r == Args(argv)
    ensures HasSpecialFlag(argv) ==> r == Args(argv)
    ensures !(|argv| >= 2 && argv[1] in names) && !HasSpecialFlag(argv) ==> r == [default] + Args(argv)
  {
    if |argv| >= 2 && argv[1] in names then Args(argv)
    else if HasSpecialFlag(argv) then Args(argv)
    else [default] + Args(argv)
  }

  /** With a registered default, the rewriting is stable: running it again on
      the rewritten command line changes nothing. */
  lemma {:induction false} InjectionStable(argv: seq<string>, names: seq<string>, default: string)
    requires argv != [] && default in names
    ensures var r := ArgvToParse(argv, names, default);
      ArgvToParse([argv[0]] + r, names, default) == r
  {
    var r := ArgvToParse(argv, names, default);
    var again := [argv[0]] + r;
    assert Args(again) == r;
    if r == [default] + Args(argv) {
      assert again[1] == default;
    } else {
      assert r == Args(argv);
      assert again == argv;
    }
  }

  /** With an unregistered default that is no flag, the rewriting is not
      stable: a second run injects the name once more. */
  lemma {:induction false} InjectionUnstable(argv: seq<string>, names: seq<string>, default: string)
    requires argv != [] && default !in names && default !in SpecialFlags
    requires !(|argv| >= 2 && argv[1] in names) && !HasSpecialFlag(argv)
    ensures var r := ArgvToParse(argv, names, default);
      ArgvToParse([argv[0]] + r, names, default) == [default] + r
  {
    var r := ArgvToParse(argv, names, default);
    var again := [argv[0]] + r;
    assert again == [argv[0], default] + Args(argv);
    assert again[1] == default;
  }


  // ---------------------------------------------------------------------
  // The parsed namespace

  /** `vars(namespace)`: a dict from attribute name to value, held as its
      entries in insertion order. */
  type Namespace = seq<(string, Value)>

  /** `key in d`. */
  predicate HasKey(ns: Namespace, key: string)
    decreases |ns|
  {
    ns != [] && (ns[0].0 == key || HasKey(ns[1..], key))
  }

  /** A dict's entries: no key twice. */
  predicate DistinctKeys(ns: Namespace)
    decreases |ns|
  {
    ns == [] || (!HasKey(ns[1..], ns[0].0) && DistinctKeys(ns[1..]))
  }

  /** `d[key]`; a missing key is the `KeyError`. */
  function Lookup(ns: Namespace, key: string): (r: Result<Value>)
    ensures r.Ok? <==> HasKey(ns, key)
    ensures r.Ok? ==> (key, r.value) in ns
    ensures r.Err? ==> r == Err(MissingKey(key))
    decreases |ns|
  {
    if ns == [] then Err(MissingKey(key))
    else if ns[0].0 == key then Ok(ns[0].1)
    else Lookup(ns[1..], key)
  }

  /** `del d[key]`: the entry goes, the others keep their order. */
  function Delete(ns: Namespace, key: string): (r: Namespace)
    ensures !HasKey(r, key)
    ensures !HasKey(ns, key) ==> r == ns
    decreases |ns|
  {
    if ns == [] then []
    else
      var rest := Delete(ns[1..], key);
      if ns[0].0 == key then rest else [ns[0]] + rest
  }

  /** Deleting one key leaves the other keys' values alone. */
  lemma {:induction false} DeleteOther(ns: Namespace, key: string, k: string)
    requires k != key
    ensures Lookup(Delete(ns, key), k) == Lookup(ns, k)
    decreases |ns|
  {
    if ns != [] {
      DeleteOther(ns[1..], key, k);
      var rest := Delete(ns[1..], key);
      if ns[0].0 != key {
        assert Delete(ns, key) == [ns[0]] + rest;
        assert ([ns[0]] + rest)[1..] == rest;
      }
    }
  }

  /** `setattr(namespace, key, v)`: a key already present keeps its place
      and takes the new value; a new key goes last. */
  function Set(ns: Namespace, key: string, v: Value): (r: Namespace)
    ensures Lookup(r, key) == Ok(v)
    ensures |r| == if HasKey(ns, key) then |ns| else |ns| + 1
    decreases |ns|
  {
    if ns == [] then [(key, v)]
    else if ns[0].0 == key then [(key, v)] + ns[1..]
    else
      var rest := Set(ns[1..], key, v);
      assert ([ns[0]] + rest)[1..] == rest;
      [ns[0]] + rest
  }

  /** A new key goes last. */
  lemma {:induction false} SetNew(ns: Namespace, key: string, v: Value)
    requires !HasKey(ns, key)
    ensures Set(ns, key, v) == ns + [(key, v)]
    decreases |ns|
  {
    if ns != [] {
      assert ns[0].0 != key && !HasKey(ns[1..], key);
      SetNew(ns[1..], key, v);
      assert Set(ns, key, v) == [ns[0]] + Set(ns[1..], key, v);
      assert [ns[0]] + (ns[1..] + [(key, v)]) == ns + [(key, v)];
    }
  }

  /** Setting one key leaves the other keys' values alone. */
  lemma {:induction false} SetOther(ns: Namespace, key: string, v: Value, k: string)
    requires k != key
    ensures Lookup(Set(ns, key, v), k) == Lookup(ns, k)
    decreases |ns|
  {
    if ns != [] && ns[0].0 != key {
      SetOther(ns[1..], key, v, k);
      var rest := Set(ns[1..], key, v);
      assert Set(ns, key, v) == [ns[0]] + rest;
      assert ([ns[0]] + rest)[1..] == rest;
    } else if ns != [] {
      var r := [(key, v)] + ns[1..];
      assert r[1..] == ns[1..];
    }
  }

  /** The `setattr` calls for the entries of `vs`, in order. */
  function SetAll(ns: Namespace, vs: Namespace): Namespace
    decreases |vs|
  {
    if vs == [] then ns else SetAll(Set(ns, vs[0].0, vs[0].1), vs[1..])
  }

  /** A key none of the `setattr` calls names keeps its value. */
  lemma {:induction false} SetAllOther(ns: Namespace, vs: Namespace, k: string)
    requires !HasKey(vs, k)
    ensures Lookup(SetAll(ns, vs), k) == Lookup(ns, k)
    decreases |vs|
  {
    if vs != [] {
      SetOther(ns, vs[0].0, vs[0].1, k);
      SetAllOther(Set(ns, vs[0].0, vs[0].1), vs[1..], k);
    }
  }

  /** The last `setattr` of a key decides its value. */
  lemma {:induction false} SetAllLast(ns: Namespace, vs: Namespace, k: string, v: Value)
    requires vs != [] && vs[|vs| - 1] == (k, v)
    ensures Lookup(SetAll(ns, vs), k) == Ok(v)
    decreases |vs|
  {
    if |vs| > 1 {
      SetAllLast(Set(ns, vs[0].0, vs[0].1), vs[1..], k, v);
    }
  }

  /** The top-level switches, in the order their actions are added: the
      subcommand's destination and the two store-true flags
      (funcli.py:283, 401, 405). */
  function Top(subcommand: Value, fullHelp: Value, version: Value): Namespace {
    [("subcommand", subcommand), ("full_help", fullHelp), ("version", version)]
  }

  /** A name one of the top-level switches uses. */
  predicate IsReserved(key: string) {
    key == "subcommand" || key == "full_help" || key == "version"
  }

  /** No entry is keyed by a top-level switch's name. */
  predicate NoReservedKey(ns: Namespace) {
    !HasKey(ns, "subcommand") && !HasKey(ns, "full_help") && !HasKey(ns, "version")
  }

  /** What the top-level parser starts from: the parsed subcommand's name (or
      `None`) and the two flags. */
  function TopLevel(sub: Option<string>, fullHelp: bool, version: bool): Namespace {
    Top(if sub.Some? then VStr(sub.value) else VNone, VBool(fullHelp), VBool(version))
  }

  /** The namespace argparse hands back for a command line naming `sub`:
      the top-level switches, then the chosen subparser's values copied over
      them with `setattr`, in parameter order. */
  function ArgparseNamespace(sub: Option<string>, fullHelp: bool, version: bool, values: Namespace): Namespace {
    SetAll(TopLevel(sub, fullHelp, version), values)
  }

  // ---------------------------------------------------------------------
  // Choosing the function

  /** Python's truth value: `None`, `False`, `0`, `""` and `[]` are false;
      enum members are true. */
  predicate Truthy(v: Value) {
    match v
    case VNone => false
    case VBool(b) => b
    case VInt(i) => i != 0
    case VStr(s) => s != ""
    case VList(xs) => xs != []
    case VMember(_, _) => true
  }

  /** funcli.py:456-465: a true parsed subcommand is the key looked up in the
      table; a false one is replaced by the default, and without a default
      the run stops with "Subcommand required!" (exit status 1). A key the
      table does not hold is the `KeyError` of `functions[name]`. */
  function SelectSubcommand(sub: Value, default: string, names: seq<string>): (r: Result<string>)
    ensures r.Ok? ==> r.value in names
    ensures !Truthy(sub) && default == "" ==> r == Err(SubcommandRequired)
    ensures !Truthy(sub) && default != "" ==>
      r == if default in names then Ok(default) else Err(MissingKey(default))
    ensures Truthy(sub) && sub.VStr? ==> r == if sub.s in names then Ok(sub.s) else Err(MissingKey(sub.s))
    ensures Truthy(sub) && sub.VList? ==> r == Err(Unhashable)
    ensures Truthy(sub) && !sub.VStr? && !sub.VList? ==> r == Err(MissingKey(PyStr(sub)))
  {
    var key :-
      if Truthy(sub) then Ok(sub)
      else if default == "" then Err(SubcommandRequired)
      else Ok(VStr(default));
    match key
    case VStr(name) => if name in names then Ok(name) else Err(MissingKey(name))
    case VList(_) => Err(Unhashable)
    case _ => Err(MissingKey(PyStr(key)))
  }

  /** What the run ends in: the full help (exit status 0), the version line
      (exit status 0), or a call with the re-coerced arguments. */
  datatype Outcome = ShowFullHelp | ShowVersion(line: string) | Call(target: string, args: seq<(string, Value)>)

  function SpecNames(specs: seq<FunctionSpec>): (ns: seq<string>)
    ensures |ns| == |specs| && forall i :: 0 <= i < |specs| ==> ns[i] == specs[i].name
  {
    seq(|specs|, i requires 0 <= i < |specs| => specs[i].name)
  }

  /** The translated function of that name. */
  function SpecNamed(specs: seq<FunctionSpec>, name: string): (s: FunctionSpec)
    requires name in SpecNames(specs)
    ensures s in specs && s.name == name
  {
    if specs[0].name == name then specs[0]
    else
      assert SpecNames(specs)[1..] == SpecNames(specs[1..]);
      SpecNamed(specs[1..], name)
  }

  /** `parsed_args[key]` read as a condition. */
  function Flag(ns: Namespace, key: string): Result<bool> {
    var v :- Lookup(ns, key);
    Ok(Truthy(v))
  }

  /** The namespace once `full_help`, `version` and `subcommand` are
      deleted: the arguments handed on. */
  function Remaining(ns: Namespace): Namespace {
    Delete(Delete(Delete(ns, "full_help"), "version"), "subcommand")
  }

  /** funcli.py:439-497 with exit on error, on the flat namespace: the full
      help first, then the version, then the function the subcommand names
      and the re-coerced rest of the namespace. */
  function Run(prog: Program, specs: seq<FunctionSpec>, m: Metadata, ns: Namespace, default: string): (r: Result<Outcome>)
    ensures Flag(ns, "full_help").Err? ==> r == Err(MissingKey("full_help"))
    ensures Flag(ns, "full_help") == Ok(true) ==> r == Ok(ShowFullHelp)
    ensures Flag(ns, "full_help") == Ok(false) && Flag(ns, "version").Err? ==> r == Err(MissingKey("version"))
    ensures Flag(ns, "full_help") == Ok(false) && Flag(ns, "version") == Ok(true) ==>
      r == Ok(ShowVersion(VersionLine(m)))
    ensures Flag(ns, "full_help") == Ok(false) && Flag(ns, "version") == Ok(false) ==>
      && (Lookup(ns, "subcommand").Err? ==> r == Err(MissingKey("subcommand")))
      && (Lookup(ns, "subcommand").Ok? ==>
        var sel := SelectSubcommand(Lookup(ns, "subcommand").value, default, SpecNames(specs));
        && (sel.Err? ==> r == Err(sel.error))
        && (sel.Ok? ==>
          var args := Recoerce(prog, SpecNamed(specs, sel.value).args, Remaining(ns));
          && (args.Err? ==> r == Err(args.error))
          && (args.Ok? ==> r == Ok(Call(sel.value, args.value)))))
    ensures r.Ok? && r.value.Call? ==>
      && r.value.target in SpecNames(specs)
      && NoReservedKey(r.value.args)
  {
    var fullHelp :- Flag(ns, "full_help");
    if fullHelp then Ok(ShowFullHelp)
    else
      var ns1 := Delete(ns, "full_help");
      DeleteOther(ns, "full_help", "version");
      var version :- Flag(ns1, "version");
      if version then Ok(ShowVersion(VersionLine(m)))
      else
        var ns2 := Delete(ns1, "version");
        DeleteOther(ns, "full_help", "subcommand");
        DeleteOther(ns1, "version", "subcommand");
        var sub :- Lookup(ns2, "subcommand");
        var name :- SelectSubcommand(sub, default, SpecNames(specs));
        var args :- Recoerce(prog, SpecNamed(specs, name).args, Remaining(ns));
        RemainingUnreserved(ns, args);
        Ok(Call(name, args))
  }

  /** Entries keyed like those left after the deletions carry no reserved
      key. */
  lemma RemainingUnreserved(ns: Namespace, args: Namespace)
    requires |args| == |Remaining(ns)| && forall i :: 0 <= i < |args| ==> args[i].0 == Remaining(ns)[i].0
    ensures NoReservedKey(args)
  {
    var n1 := Delete(ns, "full_help");
    var n2 := Delete(n1, "version");
    DeleteOther(n1, "version", "full_help");
    DeleteOther(n2, "subcommand", "full_help");
    DeleteOther(n2, "subcommand", "version");
    SameKeys(args, Remaining(ns), "subcommand");
    SameKeys(args, Remaining(ns), "full_help");
    SameKeys(args, Remaining(ns), "version");
  }

  // ---------------------------------------------------------------------
  // Dict algebra

  lemma {:induction false} HasKeyConcat(a: Namespace, b: Namespace, k: string)
    ensures HasKey(a + b, k) <==> HasKey(a, k) || HasKey(b, k)
    decreases |a|
  {
    if a == [] {
      assert a + b == b;
    } else {
      assert (a + b)[0] == a[0] && (a + b)[1..] == a[1..] + b;
      HasKeyConcat(a[1..], b, k);
    }
  }

  /** Two dicts with the same keys in the same places have the same keys. */
  lemma {:induction false} SameKeys(a: Namespace, b: Namespace, k: string)
    requires |a| == |b| && forall i :: 0 <= i < |a| ==> a[i].0 == b[i].0
    ensures HasKey(a, k) <==> HasKey(b, k)
    decreases |a|
  {
    if a != [] {
      assert a[0].0 == b[0].0;
      SameKeys(a[1..], b[1..], k);
    }
  }

  lemma {:induction false} LookupConcat(a: Namespace, b: Namespace, k: string)
    ensures Lookup(a + b, k) == if HasKey(a, k) then Lookup(a, k) else Lookup(b, k)
    decreases |a|
  {
    if a == [] {
      assert a + b == b;
    } else {
      var ab := a + b;
      assert ab[0] == a[0] && ab[1..] == a[1..] + b;
      if a[0].0 != k {
        LookupConcat(a[1..], b, k);
      }
    }
  }

  lemma {:induction false} DeleteConcat(a: Namespace, b: Namespace, k: string)
    ensures Delete(a + b, k) == Delete(a, k) + Delete(b, k)
    decreases |a|
  {
    if a == [] {
      assert a + b == b;
    } else {
      assert (a + b)[1..] == a[1..] + b;
      DeleteConcat(a[1..], b, k);
    }
  }

  lemma {:induction false} SetConcat(a: Namespace, b: Namespace, k: string, v: Value)
    requires HasKey(a, k)
    ensures Set(a + b, k, v) == Set(a, k, v) + b
    decreases |a|
  {
    assert a != [];
    var ab := a + b;
    assert ab[0] == a[0] && ab[1..] == a[1..] + b;
    if a[0].0 == k {
      calc {
        Set(ab, k, v);
        [(k, v)] + (a[1..] + b);
        ([(k, v)] + a[1..]) + b;
        Set(a, k, v) + b;
      }
    } else {
      assert HasKey(a[1..], k);
      SetConcat(a[1..], b, k, v);
      calc {
        Set(ab, k, v);
        [a[0]] + Set(a[1..] + b, k, v);
        [a[0]] + (Set(a[1..], k, v) + b);
        ([a[0]] + Set(a[1..], k, v)) + b;
        Set(a, k, v) + b;
      }
    }
  }

  lemma {:induction false} SetAllConcat(ns: Namespace, a: Namespace, b: Namespace)
    ensures SetAll(ns, a + b) == SetAll(SetAll(ns, a), b)
    decreases |a|
  {
    if a == [] {
      assert a + b == b;
    } else {
      assert (a + b)[1..] == a[1..] + b;
      SetAllConcat(Set(ns, a[0].0, a[0].1), a[1..], b);
    }
  }

  /** No key of `a` is a key of `b`. */
  predicate Fresh(a: Namespace, b: Namespace)
    decreases |a|
  {
    a == [] || (!HasKey(b, a[0].0) && Fresh(a[1..], b))
  }

  lemma {:induction false} FreshHas(a: Namespace, b: Namespace, k: string)
    requires Fresh(a, b)
    ensures HasKey(a, k) ==> !HasKey(b, k)
    decreases |a|
  {
    if a != [] {
      FreshHas(a[1..], b, k);
    }
  }

  lemma {:induction false} FreshIntro(a: Namespace, b: Namespace)
    requires forall k :: HasKey(a, k) ==> !HasKey(b, k)
    ensures Fresh(a, b)
    decreases |a|
  {
    if a != [] {
      assert HasKey(a, a[0].0);
      forall k | HasKey(a[1..], k)
        ensures !HasKey(b, k)
      {
        assert HasKey(a, k);
      }
      FreshIntro(a[1..], b);
    }
  }

  lemma {:induction false} FreshAppend(a: Namespace, ns: Namespace, e: (string, Value))
    requires Fresh(a, ns) && !HasKey(a, e.0)
    ensures Fresh(a, ns + [e])
    decreases |a|
  {
    if a != [] {
      HasKeyConcat(ns, [e], a[0].0);
      assert [e][1..] == [];
      FreshAppend(a[1..], ns, e);
    }
  }

  /** Distinct keys in `a + b` are distinct keys on either side and no key
      on both. */
  lemma {:induction false} DistinctConcat(a: Namespace, b: Namespace)
    requires DistinctKeys(a + b)
    ensures DistinctKeys(a) && DistinctKeys(b) && Fresh(a, b)
    decreases |a|
  {
    if a == [] {
      assert a + b == b;
    } else {
      var ab := a + b;
      assert ab[0] == a[0] && ab[1..] == a[1..] + b;
      DistinctConcat(a[1..], b);
      HasKeyConcat(a[1..], b, a[0].0);
    }
  }

  /** Keys not yet in the dict are appended in order. */
  lemma {:induction false} SetAllFresh(ns: Namespace, vs: Namespace)
    requires DistinctKeys(vs) && Fresh(vs, ns)
    ensures SetAll(ns, vs) == ns + vs
    decreases |vs|
  {
    if vs != [] {
      SetAllStep(ns, vs);
      FreshAppend(vs[1..], ns, vs[0]);
      SetAllFresh(ns + [vs[0]], vs[1..]);
      AppendFirst(ns, vs);
    }
  }

  lemma SetAllStep(ns: Namespace, vs: Namespace)
    requires vs != [] && !HasKey(ns, vs[0].0)
    ensures SetAll(ns, vs) == SetAll(ns + [vs[0]], vs[1..])
  {
    SetNew(ns, vs[0].0, vs[0].1);
  }

  lemma AppendFirst(ns: Namespace, vs: Namespace)
    requires vs != []
    ensures (ns + [vs[0]]) + vs[1..] == ns + vs
  {
    assert vs == [vs[0]] + vs[1..];
  }

  /** The top-level entries carry exactly the reserved names. */
  lemma TopKeys(a: Value, b: Value, c: Value, k: string)
    ensures HasKey(Top(a, b, c), k) <==> IsReserved(k)
  {
    var t := Top(a, b, c);
    var t1 := [("full_help", b), ("version", c)];
    var t2 := [("version", c)];
    assert t[1..] == t1 && t1[1..] == t2 && t2[1..] == [];
    assert HasKey(t2, k) <==> k == "version";
    assert HasKey(t1, k) <==> k == "full_help" || HasKey(t2, k);
    assert HasKey(t, k) <==> k == "subcommand" || HasKey(t1, k);
  }

  /** Setting a top-level switch changes its entry in place. */
  lemma SetTop(a: Value, b: Value, c: Value, k: string, v: Value)
    requires IsReserved(k)
    ensures Set(Top(a, b, c), k, v) ==
      if k == "subcommand" then Top(v, b, c)
      else if k == "full_help" then Top(a, v, c)
      else Top(a, b, v)
  {
    var t := Top(a, b, c);
    assert t[1..] == [("full_help", b), ("version", c)];
    assert t[1..][1..] == [("version", c)];
  }

  /** Parameters named apart from the switches are fresh to them. */
  lemma FreshOfTop(vs: Namespace, a: Value, b: Value, c: Value)
    requires NoReservedKey(vs)
    ensures Fresh(vs, Top(a, b, c))
  {
    forall k | HasKey(vs, k)
      ensures !HasKey(Top(a, b, c), k)
    {
      TopKeys(a, b, c, k);
    }
    FreshIntro(vs, Top(a, b, c));
  }

  /** The parameters after the one carrying a switch's name are fresh to the
      switches and to the parameters before it. */
  lemma FreshAfter(a: Value, b: Value, c: Value, before: Namespace, after: Namespace)
    requires NoReservedKey(after) && Fresh(before, after)
    ensures Fresh(after, Top(a, b, c) + before)
  {
    forall k | HasKey(after, k)
      ensures !HasKey(Top(a, b, c) + before, k)
    {
      TopKeys(a, b, c, k);
      HasKeyConcat(Top(a, b, c), before, k);
      FreshHas(before, after, k);
    }
    FreshIntro(after, Top(a, b, c) + before);
  }

  /** Deleting the switches from a dict that holds them first leaves the
      rest. */
  lemma RemainingAfterTop(a: Value, b: Value, c: Value, rest: Namespace)
    requires NoReservedKey(rest)
    ensures Remaining(Top(a, b, c) + rest) == rest
  {
    var t := Top(a, b, c);
    var s := ("subcommand", a);
    var v := ("version", c);
    DeleteConcat(t, rest, "full_help");
    assert t[1..] == [("full_help", b), v];
    assert Delete(t, "full_help") == [s, v];
    DeleteConcat([s, v], rest, "version");
    assert [s, v][1..] == [v];
    assert Delete([s, v], "version") == [s];
    DeleteConcat([s], rest, "subcommand");
    assert Delete([s], "subcommand") == [];
    assert [] + rest == rest;
  }

  // ---------------------------------------------------------------------
  // Parameters and the top-level switches sharing one namespace

  /** Reading a namespace that holds the switches first: their values, and
      the rest once they are deleted. */
  lemma TopLookups(a: Value, b: Value, c: Value, rest: Namespace)
    requires NoReservedKey(rest)
    ensures Lookup(Top(a, b, c) + rest, "subcommand") == Ok(a)
    ensures Lookup(Top(a, b, c) + rest, "full_help") == Ok(b)
    ensures Lookup(Top(a, b, c) + rest, "version") == Ok(c)
    ensures Remaining(Top(a, b, c) + rest) == rest
  {
    TopKeys(a, b, c, "full_help");
    TopKeys(a, b, c, "version");
    TopKeys(a, b, c, "subcommand");
    LookupConcat(Top(a, b, c), rest, "full_help");
    LookupConcat(Top(a, b, c), rest, "version");
    LookupConcat(Top(a, b, c), rest, "subcommand");
    RemainingAfterTop(a, b, c, rest);
  }

  /** The run on separate fields: the reading the flat namespace matches
      when no parameter is named like a switch. */
  function RunSeparate(prog: Program, specs: seq<FunctionSpec>, m: Metadata,
                       sub: Value, fullHelp: Value, version: Value, values: Namespace, default: string): Result<Outcome>
  {
    if Truthy(fullHelp) then Ok(ShowFullHelp)
    else if Truthy(version) then Ok(ShowVersion(VersionLine(m)))
    else
      var name :- SelectSubcommand(sub, default, SpecNames(specs));
      var args :- Recoerce(prog, SpecNamed(specs, name).args, values);
      Ok(Call(name, args))
  }

  /** On a namespace holding the switches first and then entries named
      apart from them, the run is the run on separate fields. */
  lemma RunOnTop(prog: Program, specs: seq<FunctionSpec>, m: Metadata,
                 a: Value, b: Value, c: Value, rest: Namespace, ns: Namespace, default: string)
    requires NoReservedKey(rest) && ns == Top(a, b, c) + rest
    ensures Run(prog, specs, m, ns, default) == RunSeparate(prog, specs, m, a, b, c, rest, default)
  {
    TopLookups(a, b, c, rest);
    assert Flag(ns, "full_help") == Ok(Truthy(b));
    assert Flag(ns, "version") == Ok(Truthy(c));
  }

  /** When no parameter is named like a top-level switch, the flat
      namespace behaves as separate fields: the switches decide first, then
      the parsed subcommand (or the default) picks the function, and the
      parameters' values are handed to the re-coercion as parsed. */
  lemma RunWithoutClashes(prog: Program, specs: seq<FunctionSpec>, m: Metadata, sub: Option<string>,
                          fullHelp: bool, version: bool, values: Namespace, default: string)
    requires DistinctKeys(values) && NoReservedKey(values)
    ensures Run(prog, specs, m, ArgparseNamespace(sub, fullHelp, version, values), default)
      == RunSeparate(prog, specs, m, if sub.Some? then VStr(sub.value) else VNone, VBool(fullHelp), VBool(version), values, default)
  {
    var a := if sub.Some? then VStr(sub.value) else VNone;
    FreshOfTop(values, a, VBool(fullHelp), VBool(version));
    SetAllFresh(Top(a, VBool(fullHelp), VBool(version)), values);
    RunOnTop(prog, specs, m, a, VBool(fullHelp), VBool(version), values,
             ArgparseNamespace(sub, fullHelp, version, values), default);
  }

  /** The namespace when one parameter carries a switch's name: that
      switch's entry takes the parameter's value in place and the other
      parameters follow in order. */
  lemma ParameterOverTop(sub: Option<string>, fullHelp: bool, version: bool,
                         before: Namespace, e: (string, Value), after: Namespace)
    requires IsReserved(e.0)
    requires DistinctKeys(before + after) && NoReservedKey(before + after)
    ensures ArgparseNamespace(sub, fullHelp, version, before + [e] + after)
      == Set(TopLevel(sub, fullHelp, version), e.0, e.1) + (before + after)
    ensures NoReservedKey(before + after)
  {
    var a, b, c := if sub.Some? then VStr(sub.value) else VNone, VBool(fullHelp), VBool(version);
    var t := Top(a, b, c);
    DistinctConcat(before, after);
    HasKeyConcat(before, after, "subcommand");
    HasKeyConcat(before, after, "full_help");
    HasKeyConcat(before, after, "version");
    FreshOfTop(before, a, b, c);
    TopKeys(a, b, c, e.0);
    var top := Set(t, e.0, e.1);
    SetTop(a, b, c, e.0, e.1);
    FreshAfter(top[0].1, top[1].1, top[2].1, before, after);
    SetAllAround(t, before, e, after);
  }

  /** `setattr` over fresh keys around one key already present. */
  lemma SetAllAround(t: Namespace, before: Namespace, e: (string, Value), after: Namespace)
    requires HasKey(t, e.0)
    requires DistinctKeys(before) && Fresh(before, t)
    requires DistinctKeys(after) && Fresh(after, Set(t, e.0, e.1) + before)
    ensures SetAll(t, before + [e] + after) == Set(t, e.0, e.1) + (before + after)
  {
    var top := Set(t, e.0, e.1);
    calc {
      SetAll(t, before + [e] + after);
      { SetAllConcat(t, before + [e], after); }
      SetAll(SetAll(t, before + [e]), after);
      { SetAllConcat(t, before, [e]); }
      SetAll(SetAll(SetAll(t, before), [e]), after);
      { SetAllFresh(t, before); }
      SetAll(SetAll(t + before, [e]), after);
      { SetAllOne(t + before, e); }
      SetAll(Set(t + before, e.0, e.1), after);
      { SetConcat(t, before, e.0, e.1); }
      SetAll(top + before, after);
      { SetAllFresh(top + before, after); }
      top + before + after;
      top + (before + after);
    }
  }

  lemma SetAllOne(ns: Namespace, e: (string, Value))
    ensures SetAll(ns, [e]) == Set(ns, e.0, e.1)
  {
    assert [e][1..] == [];
  }

  /** A parameter named `version` takes over the version switch: a true
      value prints the version line instead of calling the function, whether
      `--version` was given or not. */
  lemma VersionParameterShadows(prog: Program, specs: seq<FunctionSpec>, m: Metadata, sub: Option<string>,
                                version: bool, before: Namespace, v: Value, after: Namespace, default: string)
    requires Truthy(v)
    requires DistinctKeys(before + after) && NoReservedKey(before + after)
    ensures Run(prog, specs, m, ArgparseNamespace(sub, false, version, before + [("version", v)] + after), default)
      == Ok(ShowVersion(VersionLine(m)))
  {
    var a := if sub.Some? then VStr(sub.value) else VNone;
    ParameterOverTop(sub, false, version, before, ("version", v), after);
    SetTop(a, VBool(false), VBool(version), "version", v);
    RunOnTop(prog, specs, m, a, VBool(false), v, before + after,
             ArgparseNamespace(sub, false, version, before + [("version", v)] + after), default);
    SeparateWithVersion(prog, specs, m, a, v, before + after, default);
  }

  /** With full help off and a true version the run on separate fields
      prints the version line. */
  lemma SeparateWithVersion(prog: Program, specs: seq<FunctionSpec>, m: Metadata,
                            a: Value, v: Value, rest: Namespace, default: string)
    requires Truthy(v)
    ensures RunSeparate(prog, specs, m, a, VBool(false), v, rest, default) == Ok(ShowVersion(VersionLine(m)))
  {
  }

  /** ... and a false value hides the switch: `--version` no longer prints
      the version line. */
  lemma VersionFlagHidden(prog: Program, specs: seq<FunctionSpec>, m: Metadata, sub: Option<string>,
                          before: Namespace, v: Value, after: Namespace, default: string)
    requires !Truthy(v)
    requires DistinctKeys(before + after) && NoReservedKey(before + after)
    ensures Run(prog, specs, m, ArgparseNamespace(sub, false, true, before + [("version", v)] + after), default)
      != Ok(ShowVersion(VersionLine(m)))
  {
    var a := if sub.Some? then VStr(sub.value) else VNone;
    ParameterOverTop(sub, false, true, before, ("version", v), after);
    SetTop(a, VBool(false), VBool(true), "version", v);
    RunOnTop(prog, specs, m, a, VBool(false), v, before + after,
             ArgparseNamespace(sub, false, true, before + [("version", v)] + after), default);
    SeparateWithoutVersion(prog, specs, m, a, v, before + after, default);
  }

  /** With both switches false the run on separate fields calls a function
      or fails, and never prints the version line. */
  lemma SeparateWithoutVersion(prog: Program, specs: seq<FunctionSpec>, m: Metadata,
                               a: Value, v: Value, rest: Namespace, default: string)
    requires !Truthy(v)
    ensures RunSeparate(prog, specs, m, a, VBool(false), v, rest, default) != Ok(ShowVersion(VersionLine(m)))
  {
  }

  /** A parameter named `subcommand` holding a non-empty string decides which
      function is called, whatever subcommand was parsed; the other
      parameters are re-coerced against that function's flags. */
  lemma SubcommandParameterRedirects(prog: Program, specs: seq<FunctionSpec>, m: Metadata, sub: Option<string>,
                                     before: Namespace, g: string, after: Namespace, default: string)
    requires g != ""
    requires DistinctKeys(before + after) && NoReservedKey(before + after)
    ensures var r := Run(prog, specs, m, ArgparseNamespace(sub, false, false, before + [("subcommand", VStr(g))] + after), default);
      && (g !in SpecNames(specs) ==> r == Err(MissingKey(g)))
      && (g in SpecNames(specs) ==>
        var args := Recoerce(prog, SpecNamed(specs, g).args, before + after);
        r == if args.Ok? then Ok(Call(g, args.value)) else Err(args.error))
  {
    var a := if sub.Some? then VStr(sub.value) else VNone;
    ParameterOverTop(sub, false, false, before, ("subcommand", VStr(g)), after);
    SetTop(a, VBool(false), VBool(false), "subcommand", VStr(g));
    RunOnTop(prog, specs, m, VStr(g), VBool(false), VBool(false), before + after,
             ArgparseNamespace(sub, false, false, before + [("subcommand", VStr(g))] + after), default);
  }

  // ---------------------------------------------------------------------
  // The two readings side by side

  /** Without a `None` among the values handed on, the source's reading and
      the corrected one run alike. */
  lemma RunReadings(mods: Modules, specs: seq<FunctionSpec>, m: Metadata, ns: Namespace, default: string)
    requires forall i :: 0 <= i < |Remaining(ns)| ==> Remaining(ns)[i].1 != VNone
    ensures Run(AsWritten(mods), specs, m, ns, default) == Run(Corrected, specs, m, ns, default)
  {
    var sel := Lookup(ns, "subcommand");
    if Flag(ns, "full_help") == Ok(false) && Flag(ns, "version") == Ok(false) && sel.Ok? {
      var name := SelectSubcommand(sel.value, default, SpecNames(specs));
      if name.Ok? {
        RecoerceReadings(mods, SpecNamed(specs, name.value).args, Remaining(ns));
        RunCalls(AsWritten(mods), specs, m, ns, default, name.value);
        RunCalls(Corrected, specs, m, ns, default, name.value);
      }
    }
  }

  /** Once the switches are off and the subcommand picks `name`, the run is
      the call of `name` with the re-coerced rest, or the re-coercion's
      error. */
  lemma RunCalls(prog: Program, specs: seq<FunctionSpec>, m: Metadata, ns: Namespace, default: string, name: string)
    requires Flag(ns, "full_help") == Ok(false) && Flag(ns, "version") == Ok(false)
    requires Lookup(ns, "subcommand").Ok?
    requires SelectSubcommand(Lookup(ns, "subcommand").value, default, SpecNames(specs)) == Ok(name)
    ensures var args := Recoerce(prog, SpecNamed(specs, name).args, Remaining(ns));
      Run(prog, specs, m, ns, default) == if args.Ok? then Ok(Call(name, args.value)) else Err(args.error)
  {
  }

  // ---------------------------------------------------------------------
  // Reporting an `ArgError`

  /** `str(ArgError(arg_name, message))`: the name, a colon and a space, the
      message. */
  function ArgErrorText(argName: string, message: string): (t: string)
    ensures |t| == |argName| + 2 + |message|
    ensures t[..|argName|] == argName
    ensures t[|argName|..|argName| + 2] == ": "
    ensures t[|argName| + 2..] == message
  {
    var t := argName + ": " + message;
    assert t[..|argName|] == argName;
    assert t[|argName| + 2..] == message;
    t
  }

  /** The line printed for an `ArgError` raised by the called function:
      "ERROR: " before the error's text. */
  function ArgErrorReport(argName: string, message: string): (line: string)
    ensures |line| == 7 + |ArgErrorText(argName, message)|
    ensures line[..7] == "ERROR: "
    ensures line[7..] == ArgErrorText(argName, message)
  {
    var line := "ERROR: " + ArgErrorText(argName, message);
    assert line[..7] == "ERROR: ";
    assert line[7..] == ArgErrorText(argName, message);
    line
  }

  /** The argument name and the message can be read back from the text: the
      name runs to the first colon when it has none of its own. */
  lemma ArgErrorTextParses(argName: string, message: string)
    requires ':' !in argName
    ensures var t := ArgErrorText(argName, message);
      IndexOf(t, ':') == |argName| && t[..|argName|] == argName && t[|argName| + 2..] == message
  {
    var t := ArgErrorText(argName, message);
    assert t[|argName|] == ':';
    assert t == argName + (": " + message);
  }
}

=== FILE: pymodel.dfy ===
/** The slice of Python's object world the translator looks at: the type
    descriptors a parameter can carry (annotation or `type(default)`), the
    default values themselves, and how `str()`, `repr()` and
    `get_type_name` (funcli.py:134-142) render them. */
module PyModel {
  import opened PyText

  /** One enum member; member values are ints (as `auto()` produces). */
  datatype Member = Member(name: string, value: int)

  /** An `enum.Enum` subclass: its defining module, class name and members in
      declaration order. */
  datatype EnumType = EnumType(moduleName: string, name: string, members: seq<Member>)

  /** A type descriptor. `List(t)` is `list[t]`, `BareList` is the bare class
      `list`, and `NoneType` stands for Python's `None` used where a type is
      expected (an unknown original type). */
  datatype PyType =
    | Int
    | Str
    | Bool
    | Enum(e: EnumType)
    | List(elem: PyType)
    | BareList
    | NoneType

  /** Values a parameter default or a parsed argument can hold. */
  datatype Value =
    | VInt(i: int)
    | VStr(s: string)
    | VBool(b: bool)
    | VNone
    | VList(items: seq<Value>)
    | VMember(owner: EnumType, member: Member)

  /** The names of an enum's members, in declaration order (`[m.name for m in E]`). */
  function MemberNames(e: EnumType): (names: seq<string>)
    ensures |names| == |e.members|
    ensures forall i :: 0 <= i < |names| ==> names[i] == e.members[i].name
  {
    seq(|e.members|, i requires 0 <= i < |e.members| => e.members[i].name)
  }

  /** `type(v)`: a list literal has the bare class `list`. */
  function TypeOf(v: Value): PyType {
    match v
    case VInt(_) => Int
    case VStr(_) => Str
    case VBool(_) => Bool
    case VNone => NoneType
    case VList(_) => BareList
    case VMember(e, _) => Enum(e)
  }

  /** How a `list[...]` alias prints its parameter: builtins by bare name,
      other classes as `module.Name`. */
  function ItemTypeRepr(t: PyType): string {
    match t
    case Int => "int"
    case Str => "str"
    case Bool => "bool"
    case BareList => "list"
    case NoneType => "None"
    case Enum(e) => e.moduleName + "." + e.name
    case List(el) => "list[" + ItemTypeRepr(el) + "]"
  }

  /** `get_type_name(t)`: `t.__name__` for a plain class, `str(t)` for an
      alias or an enum class (whose metaclass is not `type`). */
  function TypeName(t: PyType): (name: string)
    ensures t.Enum? ==> name == "<enum '" + t.e.name + "'>"
    ensures !t.Enum? ==> name == ItemTypeRepr(t) && name != [] && name[0] != '<'
  {
    match t
    case Enum(e) => "<enum '" + e.name + "'>"
    case _ => ItemTypeRepr(t)
  }

  /** `repr(v)`. */
  function PyRepr(v: Value): string
    decreases v
  {
    match v
    case VInt(i) => IntToDecimal(i)
    case VStr(s) => PyQuote(s)
    case VBool(b) => if b then "True" else "False"
    case VNone => "None"
    case VList(xs) => "[" + Join(", ", seq(|xs|, k requires 0 <= k < |xs| => PyRepr(xs[k]))) + "]"
    case VMember(e, m) => "<" + e.name + "." + m.name + ": " + IntToDecimal(m.value) + ">"
  }

  /** `str(v)`, which is what an f-string interpolates. */
  function PyStr(v: Value): string {
    match v
    case VStr(s) => s
    case VMember(e, m) => e.name + "." + m.name
    case _ => PyRepr(v)
  }
}

=== FILE: pytext.dfy ===
/** The handful of Python `str` operations the translator relies on, with
    Python's semantics: `strip()`, `splitlines()`, `in`, `startswith`,
    `replace`, `count`, `split`, `str(int)` and `repr(str)`.
    Strings are `seq<char>`; `os.linesep` is taken to be "\n". */
module PyText {

  /** `str.isspace()` for one character: the characters `str.strip()` removes. */
  predicate IsSpace(c: char) {
    var n := c as int;
    n == 0x20 || (0x09 <= n <= 0x0D) || (0x1C <= n <= 0x1F) || n == 0x85 || n == 0xA0
    || n == 0x1680 || (0x2000 <= n <= 0x200A) || n == 0x2028 || n == 0x2029
    || n == 0x202F || n == 0x205F || n == 0x3000
  }

  /** The line boundaries `str.splitlines()` recognises ("\r\n" counts as one). */
  predicate IsLineBreak(c: char) {
    var n := c as int;
    (0x0A <= n <= 0x0D) || (0x1C <= n <= 0x1E) || n == 0x85 || n == 0x2028 || n == 0x2029
  }

  /** No leading or trailing whitespace. */
  predicate IsStripped(s: string) {
    s == [] || (!IsSpace(s[0]) && !IsSpace(s[|s| - 1]))
  }

  function TrimStart(s: string): (r: string)
    ensures |r| <= |s| && r == s[|s| - |r|..]
    ensures r == [] || !IsSpace(r[0])
    ensures forall k :: 0 <= k < |s| - |r| ==> IsSpace(s[k])
  {
    if s != [] && IsSpace(s[0]) then
      var r := TrimStart(s[1..]);
      assert forall k :: 1 <= k < |s| - |r| ==> s[k] == s[1..][k - 1];
      r
    else s
  }

  function TrimEnd(s: string): (r: string)
    ensures |r| <= |s| && r == s[..|r|]
    ensures r == [] || !IsSpace(r[|r| - 1])
    ensures forall k :: |r| <= k < |s| ==> IsSpace(s[k])
  {
    if s != [] && IsSpace(s[|s| - 1]) then TrimEnd(s[..|s| - 1]) else s
  }

  /** `s.strip()`: the slice of `s` left once the leading and the trailing
      whitespace is dropped (see `StripEmptyIffBlank` for when nothing is
      left). */
  function Strip(s: string): (r: string)
    ensures IsStripped(r)
    ensures exists i :: StripsTo(s, i, r)
  {
    var t := TrimStart(s);
    TrimmedSlice(s, t, TrimEnd(t));
    TrimEnd(t)
  }

  /** A prefix `r` of a suffix `t` of `s`, with whitespace cut on both sides,
      is what stripping leaves. */
  lemma TrimmedSlice(s: string, t: string, r: string)
    requires |t| <= |s| && t == s[|s| - |t|..] && forall k :: 0 <= k < |s| - |t| ==> IsSpace(s[k])
    requires |r| <= |t| && r == t[..|r|] && forall k :: |r| <= k < |t| ==> IsSpace(t[k])
    ensures StripsTo(s, |s| - |t|, r)
  {
    var i := |s| - |t|;
    forall k | 0 <= k < |r|
      ensures r[k] == s[i + k]
    {
      assert r[k] == t[k] == s[i + k];
    }
    forall k | i + |r| <= k < |s|
      ensures IsSpace(s[k])
    {
      assert s[k] == t[k - i];
    }
  }

  /** `r` is the slice of `s` starting at `i`, and everything of `s` before
      and after it is whitespace. */
  predicate StripsTo(s: string, i: nat, r: string) {
    i + |r| <= |s| && r == s[i..i + |r|]
    && (forall k :: 0 <= k < i ==> IsSpace(s[k]))
    && (forall k :: i + |r| <= k < |s| ==> IsSpace(s[k]))
  }

  /** The stripped text is empty exactly when the text is all whitespace. */
  lemma StripEmptyIffBlank(s: string)
    ensures (forall k :: 0 <= k < |s| ==> IsSpace(s[k])) <==> Strip(s) == []
  {
    var t := TrimStart(s);
    var d := |s| - |t|;
    if TrimEnd(t) == [] {
      assert t == [];
    } else {
      assert t != [] && !IsSpace(t[0]);
      assert s[d] == t[0];
    }
  }

  predicate StartsWith(s: string, p: string) {
    |p| <= |s| && s[..|p|] == p
  }

  predicate EndsWith(s: string, p: string) {
    |p| <= |s| && s[|s| - |p|..] == p
  }

  /** `p in s` for strings: `p` occurs somewhere in `s` (always true for ""). */
  predicate Contains(s: string, p: string)
    decreases |s|
  {
    StartsWith(s, p) || (s != [] && Contains(s[1..], p))
  }

  /** `s.replace(pat, rep)`: every non-overlapping occurrence, left to right. */
  function ReplaceAll(s: string, pat: string, rep: string): string
    requires pat != []
    decreases |s|
  {
    if |s| < |pat| then s
    else if s[..|pat|] == pat then rep + ReplaceAll(s[|pat|..], pat, rep)
    else [s[0]] + ReplaceAll(s[1..], pat, rep)
  }

  /** Number of occurrences of `c`, as `s.count(c)`. */
  function CountChar(s: string, c: char): nat {
    if s == [] then 0 else (if s[0] == c then 1 else 0) + CountChar(s[1..], c)
  }

  /** Index of the first `c` in `s`, or `|s|`. */
  function IndexOf(s: string, c: char): (i: nat)
    ensures i <= |s|
    ensures i < |s| ==> s[i] == c
    ensures forall k :: 0 <= k < i ==> s[k] != c
  {
    if s == [] || s[0] == c then 0 else 1 + IndexOf(s[1..], c)
  }

  /** Index of the first line boundary in `s`, or `|s|`. */
  function LineEnd(s: string): (i: nat)
    ensures i <= |s|
    ensures i < |s| ==> IsLineBreak(s[i])
    ensures forall k :: 0 <= k < i ==> !IsLineBreak(s[k])
  {
    if s == [] || IsLineBreak(s[0]) then 0 else 1 + LineEnd(s[1..])
  }

  /** A terminator `splitlines()` cuts at: "\r\n", or one boundary
      character. */
  predicate IsTerminator(t: string) {
    t == "\r\n" || (|t| == 1 && IsLineBreak(t[0]))
  }

  /** Length of the terminator at a boundary `s[i]`: "\r\n" is one
      terminator, any other boundary character is one on its own. */
  function TerminatorWidth(s: string, i: nat): (w: nat)
    requires i < |s| && IsLineBreak(s[i])
    ensures i + w <= |s| && IsTerminator(s[i..i + w])
    ensures s[i..i + w] == "\r" ==> i + w == |s| || s[i + w] != '\n'
  {
    if s[i] == '\r' && i + 1 < |s| && s[i + 1] == '\n' then 2 else 1
  }

  /** Lines put back together, each followed by the terminator that ended it. */
  function Rejoin(lines: seq<string>, ends: seq<string>): string
    requires |lines| == |ends|
    decreases |lines|
  {
    if lines == [] then "" else lines[0] + ends[0] + Rejoin(lines[1..], ends[1..])
  }

  /** `ends` are the terminators of `lines` within `s`: every line is ended by
      one, except that a non-empty last line may run to the end of the text,
      and a "\r" is never split from a "\n" right after it. */
  predicate RejoinsTo(lines: seq<string>, ends: seq<string>, s: string) {
    |ends| == |lines| && Rejoin(lines, ends) == s
    && (forall j :: 0 <= j < |ends| ==> IsTerminator(ends[j]) || (j == |ends| - 1 && ends[j] == ""))
    && (|ends| > 0 && ends[|ends| - 1] == "" ==> lines[|lines| - 1] != "")
    && (forall j :: 0 <= j < |ends| - 1 ==> KeepsCrLf(lines, ends, j))
  }

  /** A line ended by "\r" is not followed by an empty line whose terminator
      starts with the "\n" that would have completed "\r\n". */
  predicate KeepsCrLf(lines: seq<string>, ends: seq<string>, j: nat)
    requires j + 1 < |ends| && |lines| == |ends|
  {
    ends[j] == "\r" ==> !(lines[j + 1] == "" && ends[j + 1] != "" && ends[j + 1][0] == '\n')
  }

  /** A line holds no boundary character. */
  predicate NoBreak(line: string) {
    forall k :: 0 <= k < |line| ==> !IsLineBreak(line[k])
  }

  /** `s.splitlines()`: the lines of `s` without their terminators, which
      rebuild `s` when each is given back its terminator; no empty last line
      for a trailing terminator; `[]` for the empty string. */
  function SplitLines(s: string): (lines: seq<string>)
    ensures forall j :: 0 <= j < |lines| ==> NoBreak(lines[j])
    ensures s == [] <==> lines == []
    ensures exists ends :: RejoinsTo(lines, ends, s)
    decreases |s|
  {
    if s == [] then
      assert RejoinsTo([], [], s);
      []
    else
      var i := LineEnd(s);
      if i == |s| then
        assert RejoinsTo([s], [""], s);
        [s]
      else
        var width := TerminatorWidth(s, i);
        var after := s[i + width..];
        var rest := SplitLines(after);
        RejoinCons(s, i, width, after, rest);
        [s[..i]] + rest
  }

  /** The contract of `SplitLines` determines its result: any lines without
      a boundary inside them that rebuild `s` are `s.splitlines()`. */
  lemma {:induction false} SplitLinesUnique(s: string, lines: seq<string>, ends: seq<string>)
    requires forall j :: 0 <= j < |lines| ==> NoBreak(lines[j])
    requires RejoinsTo(lines, ends, s)
    ensures lines == SplitLines(s)
    decreases |lines|
  {
    if lines == [] {
      assert s == [];
    } else {
      var tail := RejoinHead(lines, ends, s);
      if ends[0] == "" {
        SplitLastLine(s);
      } else {
        SplitTerminatedLine(s, lines, ends, tail);
      }
      SplitLinesUnique(tail, lines[1..], ends[1..]);
    }
  }

  /** The first line, its terminator and the text the other lines rebuild. */
  lemma {:induction false} RejoinHead(lines: seq<string>, ends: seq<string>, s: string) returns (tail: string)
    requires forall j :: 0 <= j < |lines| ==> NoBreak(lines[j])
    requires RejoinsTo(lines, ends, s) && lines != []
    ensures s == lines[0] + ends[0] + tail && NoBreak(lines[0])
    ensures RejoinsTo(lines[1..], ends[1..], tail)
    ensures forall j :: 0 <= j < |lines| - 1 ==> NoBreak(lines[1..][j])
    ensures ends[0] == "" ==> |lines| == 1 && s == lines[0] && s != "" && tail == ""
    ensures ends[0] != "" ==> IsTerminator(ends[0])
  {
    tail := Rejoin(lines[1..], ends[1..]);
    if ends[0] == "" {
      assert |lines| == 1;
    }
    forall j | 0 <= j < |ends| - 2
      ensures KeepsCrLf(lines[1..], ends[1..], j)
    {
      assert KeepsCrLf(lines, ends, j + 1);
    }
  }

  /** A non-empty text without a boundary is one line. */
  lemma {:induction false} SplitLastLine(s: string)
    requires s != [] && NoBreak(s)
    ensures SplitLines(s) == [s] + SplitLines("")
  {
    assert LineEnd(s) == |s|;
  }

  /** A line ended by a terminator is cut off with exactly that terminator. */
  lemma {:induction false} SplitTerminatedLine(s: string, lines: seq<string>, ends: seq<string>, tail: string)
    requires RejoinsTo(lines, ends, s) && lines != []
    requires NoBreak(lines[0]) && IsTerminator(ends[0])
    requires |lines| > 1 ==> lines[1] == "" || !IsLineBreak(lines[1][0])
    requires s == lines[0] + ends[0] + tail && tail == Rejoin(lines[1..], ends[1..])
    ensures SplitLines(s) == [lines[0]] + SplitLines(tail)
  {
    var i := |lines[0]|;
    FirstLineEnd(s, lines[0], ends[0] + tail);
    RejoinedWidth(s, lines, ends, tail);
    SplitLinesStep(s);
  }

  /** A first line without a boundary, ended by one or by the end of the text,
      is where `LineEnd` stops. */
  lemma {:induction false} FirstLineEnd(s: string, first: string, rest: string)
    requires NoBreak(first)
    requires s == first + rest && (rest == [] || IsLineBreak(rest[0]))
    ensures LineEnd(s) == |first| && s[..|first|] == first
  {
    assert forall k :: 0 <= k < |first| ==> s[k] == first[k];
    assert |first| < |s| ==> s[|first|] == rest[0];
  }

  /** One step of `SplitLines`: the text up to the first boundary, then the
      lines after its terminator. */
  lemma {:induction false} SplitLinesStep(s: string)
    requires s != [] && LineEnd(s) < |s|
    ensures var i := LineEnd(s);
      SplitLines(s) == [s[..i]] + SplitLines(s[i + TerminatorWidth(s, i)..])
  {
  }

  /** The width `SplitLines` cuts is the first terminator's length. */
  lemma {:induction false} RejoinedWidth(s: string, lines: seq<string>, ends: seq<string>, tail: string)
    requires RejoinsTo(lines, ends, s) && |lines| > 0 && IsTerminator(ends[0])
    requires |lines| > 1 ==> lines[1] == "" || !IsLineBreak(lines[1][0])
    requires s == lines[0] + ends[0] + tail && tail == Rejoin(lines[1..], ends[1..])
    ensures var i := |lines[0]|;
      i < |s| && IsLineBreak(s[i]) && |ends[0]| == TerminatorWidth(s, i) && s[i + |ends[0]|..] == tail
  {
    var i := |lines[0]|;
    assert s[i] == ends[0][0];
    if ends[0] == "\r" && |lines| > 1 {
      assert tail == lines[1] + ends[1] + Rejoin(lines[2..], ends[2..]);
      if lines[1] != "" {
        assert tail[0] == lines[1][0];
      } else if ends[1] != "" {
        assert KeepsCrLf(lines, ends, 0);
        assert tail[0] == ends[1][0];
      }
    }
  }

  /** A first line, its terminator and the lines after it rebuild the text. */
  lemma {:induction false} RejoinCons(s: string, i: nat, width: nat, after: string, rest: seq<string>)
    requires i + width <= |s| && IsTerminator(s[i..i + width]) && after == s[i + width..]
    requires s[i..i + width] == "\r" ==> after == [] || after[0] != '\n'
    requires exists ends :: RejoinsTo(rest, ends, after)
    ensures exists ends :: RejoinsTo([s[..i]] + rest, ends, s)
  {
    var tail :| RejoinsTo(rest, tail, after);
    var lines := [s[..i]] + rest;
    var ends := [s[i..i + width]] + tail;
    assert lines[1..] == rest && ends[1..] == tail;
    assert s == s[..i] + s[i..i + width] + s[i + width..];
    if rest != [] {
      assert after == rest[0] + tail[0] + Rejoin(rest[1..], tail[1..]);
      assert KeepsCrLf(lines, ends, 0);
    }
    forall j | 1 <= j < |ends| - 1
      ensures KeepsCrLf(lines, ends, j)
    {
      assert KeepsCrLf(rest, tail, j - 1);
    }
    assert RejoinsTo(lines, ends, s);
  }

  /** `sep.join(parts)`. */
  function Join(sep: string, parts: seq<string>): string {
    if parts == [] then ""
    else if |parts| == 1 then parts[0]
    else parts[0] + sep + Join(sep, parts[1..])
  }

  function Digit(d: nat): char
    requires d < 10
  {
    ('0' as int + d) as char
  }

  function NatToDecimal(n: nat): string
    decreases n
  {
    if n < 10 then [Digit(n)] else NatToDecimal(n / 10) + [Digit(n % 10)]
  }

  /** `str(i)` for a Python int. */
  function IntToDecimal(i: int): string {
    if i < 0 then "-" + NatToDecimal(-i) else NatToDecimal(i)
  }

  /** The escape `repr` writes for one character inside quotes `q`. */
  function EscapeChar(c: char, q: char): string {
    if c == q || c == '\\' then ['\\', c]
    else if c == '\n' then "\\n"
    else if c == '\r' then "\\r"
    else if c == '\t' then "\\t"
    else [c]
  }

  function EscapeBody(s: string, q: char): string {
    if s == [] then "" else EscapeChar(s[0], q) + EscapeBody(s[1..], q)
  }

  /** `repr(s)` for a str: single quotes unless the text holds a single quote
      and no double quote. */
  function PyQuote(s: string): string {
    var q := if '\'' in s && '"' !in s then '"' else '\'';
    [q] + EscapeBody(s, q) + [q]
  }

  // ---------------------------------------------------------------------
  // Facts about the operations above, used by the type-name and docstring
  // proofs.

  lemma {:induction false} ContainsChar(s: string, c: char)
    ensures Contains(s, [c]) <==> c in s
    decreases |s|
  {
    if s != [] {
      ContainsChar(s[1..], c);
      assert s == [s[0]] + s[1..];
    }
  }

  /** A text ending with the pattern contains it. */
  lemma {:induction false} ContainsAtEnd(u: string, p: string)
    ensures Contains(u + p, p)
    decreases |u|
  {
    if u == [] {
      assert (u + p)[..|p|] == p;
    } else {
      assert (u + p)[1..] == u[1..] + p;
      ContainsAtEnd(u[1..], p);
    }
  }

  /** Replacing a pattern that does not occur changes nothing. */
  lemma {:induction false} ReplaceAbsent(s: string, pat: string, rep: string)
    requires pat != [] && !Contains(s, pat)
    ensures ReplaceAll(s, pat, rep) == s
    decreases |s|
  {
    if |s| >= |pat| {
      assert !StartsWith(s, pat);
      ReplaceAbsent(s[1..], pat, rep);
      assert s == [s[0]] + s[1..];
    }
  }

  /** Deleting one character distributes over concatenation. */
  lemma {:induction false} RemoveCharConcat(a: string, b: string, c: char)
    ensures ReplaceAll(a + b, [c], "") == ReplaceAll(a, [c], "") + ReplaceAll(b, [c], "")
    decreases |a|
  {
    if a == [] {
      assert a + b == b;
    } else {
      assert (a + b)[1..] == a[1..] + b;
      assert (a + b)[..1] == a[..1];
      RemoveCharConcat(a[1..], b, c);
    }
  }

  /** A pattern that avoids character `c` cannot straddle a `c`. */
  lemma {:induction false} NoOccurrenceAcross(a: string, c: char, b: string, p: string)
    requires p != [] && c !in p
    requires !Contains(a, p) && !Contains(b, p)
    ensures !Contains(a + [c] + b, p)
    decreases |a|
  {
    var s := a + [c] + b;
    assert s[|a|] == c;
    if |p| <= |a| {
      assert s[..|p|] == a[..|p|];
    }
    assert !StartsWith(s, p);
    if a == [] {
      assert s[1..] == b;
    } else {
      assert s[1..] == a[1..] + [c] + b;
      NoOccurrenceAcross(a[1..], c, b, p);
    }
  }

  lemma {:induction false} CountCharConcat(a: string, b: string, c: char)
    ensures CountChar(a + b, c) == CountChar(a, c) + CountChar(b, c)
    decreases |a|
  {
    if a != [] {
      assert (a + b)[1..] == a[1..] + b;
      CountCharConcat(a[1..], b, c);
    } else {
      assert a + b == b;
    }
  }

  lemma {:induction false} CountCharAbsent(s: string, c: char)
    requires c !in s
    ensures CountChar(s, c) == 0
    decreases |s|
  {
    if s != [] {
      CountCharAbsent(s[1..], c);
    }
  }

  /** An occurrence at the very start is replaced and scanning resumes after it. */
  lemma ReplaceAtStart(pat: string, r: string, rep: string)
    requires pat != []
    ensures ReplaceAll(pat + r, pat, rep) == rep + ReplaceAll(r, pat, rep)
  {
    var s := pat + r;
    assert s[..|pat|] == pat && s[|pat|..] == r;
  }

  /** Deleting a pattern that ends the text, and cannot start earlier,
      leaves what came before it. */
  lemma {:induction false} RemoveTrailing(u: string, pat: string)
    requires pat != [] && pat[0] !in u
    ensures ReplaceAll(u + pat, pat, "") == u
  {
    ReplaceSkip(u, pat, pat, "");
    assert pat + [] == pat;
    ReplaceAtStart(pat, [], "");
    assert u + "" == u;
  }

  /** Characters that cannot start the pattern are copied through unchanged. */
  lemma {:induction false} ReplaceSkip(u: string, r: string, pat: string, rep: string)
    requires pat != [] && pat[0] !in u
    ensures ReplaceAll(u + r, pat, rep) == u + ReplaceAll(r, pat, rep)
    decreases |u|
  {
    if u == [] {
      assert u + r == r;
    } else {
      var s := u + r;
      assert s[1..] == u[1..] + r;
      ReplaceSkip(u[1..], r, pat, rep);
      if |s| < |pat| {
        assert ReplaceAll(r, pat, rep) == r;
      } else {
        assert s[0] == u[0] != pat[0];
        assert s[..|pat|] != pat;
        assert ReplaceAll(s, pat, rep) == [u[0]] + ReplaceAll(u[1..] + r, pat, rep);
        assert u == [u[0]] + u[1..];
      }
    }
  }

  /** Every character of an occurring pattern occurs in the text. */
  lemma {:induction false} OccurrenceHasChar(s: string, p: string, c: char)
    requires c in p
    ensures Contains(s, p) ==> c in s
    decreases |s|
  {
    if StartsWith(s, p) {
      var k :| 0 <= k < |p| && p[k] == c;
      assert s[k] == c;
    }
    if s != [] {
      OccurrenceHasChar(s[1..], p, c);
    }
  }
}

=== FILE: registry.dfy ===
/** The function table of `fun_to_cli` (funcli.py:242, 286-390): the
    functions keyed by name, and for each the subcommand description and the
    flags built from its parameters. */
module Registry {
  import opened Results
  import opened PyText
  import opened TypeNames
  import opened Docstrings
  import opened ArgSpecs

  /** What the translator reads from a function object: `__name__`,
      `__doc__` and the parameters of its signature, in order. */
  datatype FunctionDef = FunctionDef(name: string, doc: Option<string>, params: seq<Param>)

  /** A `Function` record once its parameters are translated. */
  datatype FunctionSpec = FunctionSpec(name: string, descr: string, args: seq<ArgSpec>)

  function Names(t: seq<FunctionDef>): (ns: seq<string>)
    ensures |ns| == |t| && forall i :: 0 <= i < |t| ==> ns[i] == t[i].name
  {
    seq(|t|, i requires 0 <= i < |t| => t[i].name)
  }

  /** Each name once, where it first occurs. */
  function Dedup(ns: seq<string>): seq<string>
    decreases |ns|
  {
    if ns == [] then []
    else
      var d := Dedup(ns[..|ns| - 1]);
      if ns[|ns| - 1] in d then d else d + [ns[|ns| - 1]]
  }

  /** The last definition with name `n`. */
  function LastNamed(fs: seq<FunctionDef>, n: string): Option<FunctionDef>
    decreases |fs|
  {
    if fs == [] then None
    else if fs[|fs| - 1].name == n then Some(fs[|fs| - 1])
    else LastNamed(fs[..|fs| - 1], n)
  }

  /** A dict's keys: no name twice. */
  predicate DistinctNames(t: seq<FunctionDef>) {
    forall i, j :: 0 <= i < j < |t| ==> t[i].name != t[j].name
  }

  /** Index of the entry named `n`, or `|t|`. */
  function FindName(t: seq<FunctionDef>, n: string): (i: nat)
    ensures i <= |t|
    ensures i < |t| ==> t[i].name == n
    ensures forall k :: 0 <= k < i ==> t[k].name != n
  {
    if t == [] || t[0].name == n then 0 else 1 + FindName(t[1..], n)
  }

  /** `d[f.__name__] = f` on a dict held as its entries in insertion order: a
      known key keeps its place and takes the new value, a new key goes last. */
  function Insert(t: seq<FunctionDef>, f: FunctionDef): (r: seq<FunctionDef>)
    requires DistinctNames(t)
    ensures DistinctNames(r)
    ensures Names(r) == if f.name in Names(t) then Names(t) else Names(t) + [f.name]
    ensures f in r
    ensures forall g :: g in r ==> g == f || (g in t && g.name != f.name)
  {
    var i := FindName(t, f.name);
    if i < |t| then
      var r := t[i := f];
      assert Names(r) == Names(t);
      assert forall g :: g in r ==> g == f || (g in t && g.name != f.name) by {
        forall g | g in r
          ensures g == f || (g in t && g.name != f.name)
        {
          var k :| 0 <= k < |r| && r[k] == g;
          if k != i {
            assert g == t[k] && t[k].name != t[i].name;
          }
        }
      }
      r
    else
      var r := t + [f];
      assert f.name !in Names(t);
      assert Names(r) == Names(t) + [f.name];
      r
  }

  /** `{func.__name__: func for func in functions}`: one entry per name, in
      the order names first occur, each holding the last function of that
      name. */
  function FunctionTable(fs: seq<FunctionDef>): (t: seq<FunctionDef>)
    ensures DistinctNames(t)
    ensures Names(t) == Dedup(Names(fs))
    ensures forall g :: g in t ==> LastNamed(fs, g.name) == Some(g)
    decreases |fs|
  {
    if fs == [] then []
    else
      var init := fs[..|fs| - 1];
      var f := fs[|fs| - 1];
      var prev := FunctionTable(init);
      var t := Insert(prev, f);
      assert Names(fs)[..|fs| - 1] == Names(init);
      t
  }

  /** Dedup leaves no name twice. */
  lemma {:induction false} DedupDistinct(ns: seq<string>)
    ensures forall i, j :: 0 <= i < j < |Dedup(ns)| ==> Dedup(ns)[i] != Dedup(ns)[j]
    ensures forall n :: n in Dedup(ns) <==> n in ns
    decreases |ns|
  {
    if ns != [] {
      var init := ns[..|ns| - 1];
      DedupDistinct(init);
      assert ns == init + [ns[|ns| - 1]];
    }
  }

  /** Every name of the list has an entry in the table, and nothing else
      does. */
  lemma FunctionTableNames(fs: seq<FunctionDef>)
    ensures forall n :: n in Names(FunctionTable(fs)) <==> n in Names(fs)
  {
    DedupDistinct(Names(fs));
  }

  // ---------------------------------------------------------------------
  // Translating one function

  /** The flags of the parameters, in signature order; the first parameter
      that cannot be translated stops the whole translation. */
  function BuildArgs(prog: Program, ps: seq<Param>, doc: Option<string>): (r: Result<seq<ArgSpec>>)
    ensures r.Ok? <==> forall i :: 0 <= i < |ps| ==> BuildArg(prog, ps[i], doc).Ok?
    ensures prog.Corrected? ==> (r.Ok? <==> forall i :: 0 <= i < |ps| ==> Supported(ps[i]) && !ClashesWithHelp(ps[i].name))
    ensures r.Ok? ==> |r.value| == |ps| && forall i :: 0 <= i < |ps| ==> r.value[i] == BuildArg(prog, ps[i], doc).value
    ensures r.Err? ==> exists i :: (0 <= i < |ps| && BuildArg(prog, ps[i], doc) == Err(r.error)
      && forall j :: 0 <= j < i ==> BuildArg(prog, ps[j], doc).Ok?)
  {
    MapResult(ps, p => BuildArg(prog, p, doc))
  }

  /** One iteration of funcli.py:286-390: the description is the docstring's
      preamble when there is a docstring, and every parameter becomes a
      flag. */
  function BuildFunction(prog: Program, f: FunctionDef): (r: Result<FunctionSpec>)
    ensures r.Ok? <==> BuildArgs(prog, f.params, f.doc).Ok?
    ensures prog.Corrected? ==> (r.Ok? <==>
      forall i :: 0 <= i < |f.params| ==> Supported(f.params[i]) && !ClashesWithHelp(f.params[i].name))
    ensures r.Ok? ==> r.value.name == f.name
    ensures r.Ok? ==> r.value.descr == if f.doc.Some? then FunctionDescription(f.doc.value) else ""
    ensures r.Ok? ==> r.value.args == BuildArgs(prog, f.params, f.doc).value
    ensures r.Ok? ==>
      |r.value.args| == |f.params| && forall i :: 0 <= i < |f.params| ==> r.value.args[i].name == f.params[i].name
    ensures r.Err? ==> r.error == BuildArgs(prog, f.params, f.doc).error
  {
    var descr := if f.doc.Some? then FunctionDescription(f.doc.value) else "";
    var args :- BuildArgs(prog, f.params, f.doc);
    Ok(FunctionSpec(f.name, descr, args))
  }

  /** The translation of every function of the table, in table order; the
      first function that cannot be translated stops it. */
  function BuildAll(prog: Program, t: seq<FunctionDef>): (r: Result<seq<FunctionSpec>>)
    ensures r.Ok? <==> forall i :: 0 <= i < |t| ==> BuildFunction(prog, t[i]).Ok?
    ensures r.Ok? ==> |r.value| == |t| && forall i :: 0 <= i < |t| ==> r.value[i] == BuildFunction(prog, t[i]).value
    ensures r.Ok? ==> forall i :: 0 <= i < |t| ==> r.value[i].name == t[i].name
    ensures r.Err? ==> exists i :: (0 <= i < |t| && BuildFunction(prog, t[i]) == Err(r.error)
      && forall j :: 0 <= j < i ==> BuildFunction(prog, t[j]).Ok?)
  {
    MapResult(t, f => BuildFunction(prog, f))
  }

  /** The subcommands the parser offers: one per distinct function name, in
      the order the names first occur. */
  function BuildCli(prog: Program, fs: seq<FunctionDef>): (r: Result<seq<FunctionSpec>>)
    ensures r.Ok? <==> forall i :: 0 <= i < |FunctionTable(fs)| ==> BuildFunction(prog, FunctionTable(fs)[i]).Ok?
    ensures r.Ok? ==>
      |r.value| == |Dedup(Names(fs))| && forall i :: 0 <= i < |r.value| ==> r.value[i].name == Dedup(Names(fs))[i]
    ensures r.Err? ==> exists i :: (0 <= i < |FunctionTable(fs)| && BuildFunction(prog, FunctionTable(fs)[i]) == Err(r.error)
      && forall j :: 0 <= j < i ==> BuildFunction(prog, FunctionTable(fs)[j]).Ok?)
  {
    BuildCliNames(prog, fs);
    BuildAll(prog, FunctionTable(fs))
  }

  /** The built subcommands carry the table's names, in order. */
  lemma BuildCliNames(prog: Program, fs: seq<FunctionDef>)
    ensures var r := BuildAll(prog, FunctionTable(fs));
      r.Ok? ==> |r.value| == |Dedup(Names(fs))| && forall i :: 0 <= i < |r.value| ==> r.value[i].name == Dedup(Names(fs))[i]
  {
    var t := FunctionTable(fs);
    var names := Names(t);
    assert names == Dedup(Names(fs));
  }

  /** Where every parameter of every function classifies alike in the two
      readings, they build the same subcommands. */
  lemma BuildAllReadings(mods: Modules, t: seq<FunctionDef>)
    requires forall i, k :: 0 <= i < |t| && 0 <= k < |t[i].params| ==>
      ClassifyAsWritten(mods, t[i].params[k]) == Classify(t[i].params[k])
    ensures BuildAll(AsWritten(mods), t) == BuildAll(Corrected, t)
  {
    forall i | 0 <= i < |t|
      ensures BuildFunction(AsWritten(mods), t[i]) == BuildFunction(Corrected, t[i])
    {
      var f := t[i];
      forall k | 0 <= k < |f.params|
        ensures BuildArg(AsWritten(mods), f.params[k], f.doc) == BuildArg(Corrected, f.params[k], f.doc)
      {
        BuildArgReadings(mods, f.params[k], f.doc);
      }
      MapResultExt(f.params, p => BuildArg(AsWritten(mods), p, f.doc), p => BuildArg(Corrected, p, f.doc));
    }
    MapResultExt(t, f => BuildFunction(AsWritten(mods), f), f => BuildFunction(Corrected, f));
  }
}

=== FILE: results.dfy ===
/** Failure-compatible wrappers and the error conditions the translator can hit.
    Every Python exception the modelled code raises (or lets escape) becomes one
    `Error` constructor; nothing is caught that the source does not catch. */
module Results {

  datatype Option<+T> = None | Some(value: T) {
    function GetOr(default: T): T {
      match this
      case Some(v) => v
      case None => default
    }
  }

  datatype Error =
    /** `issubclass(None, ...)`: the parameter's original type is `None`. */
    | NotAClass
    /** A `list[list[...]]` or similar generic element: not supported. */
    | UnsupportedNesting
    /** `get_type_from_str` could not find the named type. */
    | UnresolvedType(typeName: string)
    /** `for item in value` on a value that is not iterable. */
    | NotIterable
    /** `list.append` on a namespace value that is not a list. */
    | NotAppendable
    /** `EnumClass[value]`: no member of that name. */
    | UnknownMember
    /** `fun.args[key]` or `functions[name]`: no such entry. */
    | MissingKey(key: string)
    /** `d[key]` with a list as the key: lists are unhashable (`TypeError`). */
    | Unhashable
    /** No subcommand parsed and no default function configured. */
    | SubcommandRequired
    /** `add_argument` with an option string the parser already has
        (argparse's `ArgumentError`: "conflicting option string(s)"). */
    | ConflictingOption(option: string)

  datatype Result<+T> = Ok(value: T) | Err(error: Error) {
    predicate IsFailure() {
      Err?
    }

    function PropagateFailure<U>(): Result<U>
      requires Err?
    {
      Err(error)
    }

    function Extract(): T
      requires Ok?
    {
      value
    }
  }

  /** Applies `f` to every element in order; the first failure stops the
      traversal and is its result. */
  function MapResult<A, B>(xs: seq<A>, f: A -> Result<B>): (r: Result<seq<B>>)
    ensures r.Ok? <==> forall i :: 0 <= i < |xs| ==> f(xs[i]).Ok?
    ensures r.Ok? ==> |r.value| == |xs| && forall i :: 0 <= i < |xs| ==> r.value[i] == f(xs[i]).value
    ensures r.Err? ==> exists i :: (0 <= i < |xs| && f(xs[i]) == Err(r.error)
      && forall j :: 0 <= j < i ==> f(xs[j]).Ok?)
    decreases |xs|
  {
    if xs == [] then Ok([])
    else
      match f(xs[0])
      case Err(e) => Err(e)
      case Ok(y) =>
        var rest := MapResult(xs[1..], f);
        assert forall i :: 1 <= i < |xs| ==> xs[i] == xs[1..][i - 1];
        match rest
        case Err(e) =>
          assert exists i :: 0 <= i < |xs| && f(xs[i]) == Err(e) && forall j :: 0 <= j < i ==> f(xs[j]).Ok? by {
            var k :| 0 <= k < |xs[1..]| && f(xs[1..][k]) == Err(e) && forall j :: 0 <= j < k ==> f(xs[1..][j]).Ok?;
            assert f(xs[k + 1]) == Err(e);
            assert forall j :: 1 <= j < k + 1 ==> f(xs[j]).Ok? by {
              forall j | 1 <= j < k + 1
                ensures f(xs[j]).Ok?
              {
                assert xs[j] == xs[1..][j - 1];
              }
            }
          }
          Err(e)
        case Ok(ys) => Ok([y] + ys)
  }

  /** The traversal only looks at what `f` gives for the elements. */
  lemma {:induction false} MapResultExt<A, B>(xs: seq<A>, f: A -> Result<B>, g: A -> Result<B>)
    requires forall i :: 0 <= i < |xs| ==> f(xs[i]) == g(xs[i])
    ensures MapResult(xs, f) == MapResult(xs, g)
    decreases |xs|
  {
    if xs != [] {
      assert forall i :: 1 <= i < |xs| ==> xs[i] == xs[1..][i - 1];
      MapResultExt(xs[1..], f, g);
    }
  }
}

=== FILE: scenarios.dfy ===
/** The concrete runs the repository's tests pin down, derived from the
    model: the demo scripts' functions and command lines, with the argparse
    conversions (`int("11")`, ...) already applied to the supplied values. */
module Scenarios {
  import opened Results
  import opened PyText
  import opened PyModel
  import opened TypeNames
  import opened Docstrings
  import opened ArgSpecs
  import opened AppendAction
  import opened Dispatch
  import opened Registry
  import opened Invocation

  /** Characters `repr` writes as they are. */
  predicate PlainChar(c: char) {
    c != '\'' && c != '"' && c != '\\' && c != '\n' && c != '\r' && c != '\t'
  }

  lemma {:induction false} EscapePlain(s: string, q: char)
    requires q == '\''
    requires forall k :: 0 <= k < |s| ==> PlainChar(s[k])
    ensures EscapeBody(s, q) == s
    decreases |s|
  {
    if s != [] {
      EscapePlain(s[1..], q);
      assert s == [s[0]] + s[1..];
    }
  }

  /** `repr` of a string without quotes, backslashes or control characters
      puts it between single quotes. */
  lemma QuotePlain(s: string)
    requires forall k :: 0 <= k < |s| ==> PlainChar(s[k])
    ensures PyRepr(VStr(s)) == "'" + s + "'"
  {
    assert '\'' !in s;
    EscapePlain(s, '\'');
  }

  /** A list of `int`, `str` or `bool` classifies alike in both readings. */
  lemma ScalarListAgrees(prog: Program, p: Param, el: PyType)
    requires el == Int || el == Str || el == Bool
    requires p.annotation == Some(List(el))
    ensures ClassifyIn(prog, p) == Classify(p)
  {
    if prog.AsWritten? {
      ClassifyAsWrittenAgrees(prog.mods, p);
    }
  }

  /** A value other than `None` is re-coerced alike in both readings. */
  lemma CastInSome(prog: Program, a: ArgSpec, v: Value)
    requires v != VNone
    ensures CastIn(prog, a, v) == CastArg(a, v)
  {
    if prog.AsWritten? {
      CastReadings(prog.mods, a, v);
    }
  }

  /** test_list.py:31: `an_unspecified_list --a_list 11 --a_list 22 --a_list
      33` hands the function the strings, as `['11', '22', '33']`. */
  lemma UnspecifiedListScenario(prog: Program, p: Param, doc: Option<string>, vs: seq<Value>)
    requires p == Param("a_list", Some(BareList), None)
    requires vs == [VStr("11"), VStr("22"), VStr("33")]
    ensures BuildArg(prog, p, doc).Ok?
    ensures var a := BuildArg(prog, p, doc).value;
      && a.typing.translated == Str && a.action == CustomAppend
      && Replay(a.default, Initial(a.default), vs) == Ok(AppendState(3, VList(vs)))
      && CastIn(prog, a, VList(vs)) == Ok(VList(vs))
  {
    ElementUnused(prog, p);
    ClassifyBareList(p);
    var a := BuildArg(prog, p, doc).value;
    AppendReplacesDefault(a.default, vs);
    NonEnumPassesThrough(a, VList(vs));
    CastInSome(prog, a, VList(vs));
  }

  /** test_list.py:57: `an_int_list --a_list 11 --a_list 22 --a_list 33`
      hands the function the ints, as `[11, 22, 33]`. */
  lemma IntListScenario(prog: Program, p: Param, doc: Option<string>, vs: seq<Value>)
    requires p == Param("a_list", Some(List(Int)), None)
    requires vs == [VInt(11), VInt(22), VInt(33)]
    ensures BuildArg(prog, p, doc).Ok?
    ensures var a := BuildArg(prog, p, doc).value;
      && a.typing.translated == Int && a.action == CustomAppend
      && Replay(a.default, Initial(a.default), vs) == Ok(AppendState(3, VList(vs)))
      && CastIn(prog, a, VList(vs)) == Ok(VList(vs))
  {
    ScalarListAgrees(prog, p, Int);
    ClassifyScalarList(p, Int);
    var a := BuildArg(prog, p, doc).value;
    AppendReplacesDefault(a.default, vs);
    NonEnumPassesThrough(a, VList(vs));
    CastInSome(prog, a, VList(vs));
  }

  /** test_basics.py:52: `default_value` called without flags gets its
      defaults back; the list default is not rewritten, and `repr` shows
      `['a', 'b', 'c']`. */
  lemma DefaultListScenario(prog: Program, p: Param, doc: Option<string>, d: seq<Value>)
    requires d == [VStr("a"), VStr("b"), VStr("c")]
    requires p == Param("a_list", Some(List(Str)), Some(VList(d)))
    ensures BuildArg(prog, p, doc).Ok?
    ensures var a := BuildArg(prog, p, doc).value;
      && !a.required && a.default == VList(d)
      && Replay(a.default, Initial(a.default), []) == Ok(Initial(VList(d)))
      && CastIn(prog, a, a.default) == Ok(VList(d))
  {
    ScalarListAgrees(prog, p, Str);
    ClassifyScalarList(p, Str);
    var a := BuildArg(prog, p, doc).value;
    AppendReplacesDefault(a.default, []);
    NonEnumPassesThrough(a, VList(d));
    CastInSome(prog, a, VList(d));
  }

  /** demo.py:39-47: `a_str: str = "string"`, whose docstring line
      `\t:param a_str:` tags it without describing it, before the line that
      opens `a_list`, gets the help "[optional, str, default:'string']". */
  lemma {:induction false} StrDefaultHelpScenario(prog: Program, p: Param, doc: string, before: seq<string>, rest: seq<string>)
    requires p == Param("a_str", Some(Str), Some(VStr("string")))
    requires SplitLines(doc) == before + ["\t" + ParamTag("a_str")] + rest
    requires forall k :: 0 <= k < |before| ==> !Contains(before[k], ParamTag("a_str"))
    requires rest == [] || OpensOther(rest[0], ParamTag("a_str"))
    ensures BuildArg(prog, p, Some(doc)).Ok?
    ensures BuildArg(prog, p, Some(doc)).value.help == "[optional, str, default:'string']"
  {
    TaggedWithoutText("a_str", doc, before, "\t", rest);
    StrDefaultFields(prog, p, "string", Some(doc));
    QuotedStringLiteral();
    BuiltHelp(prog, p, Some(doc));
    HelpLiteral();
  }

  /** The quoted default's literal, decided on its own. */
  lemma QuotedStringLiteral()
    ensures "'" + "string" + "'" == "'string'"
  {
  }

  /** The fields the help of a `str` parameter with a string default and no
      description is made from; the flag builds unless it is named `help`. */
  lemma StrDefaultFields(prog: Program, p: Param, s: string, doc: Option<string>)
    requires p.annotation == Some(Str) && p.default == Some(VStr(s))
    requires ArgDescription(p.name, doc) == ""
    ensures BuildArg(prog, p, doc).Ok? <==> !ClashesWithHelp(p.name)
    ensures BuildArg(prog, p, doc).Ok? ==> var a := BuildArg(prog, p, doc).value;
      && !a.required && a.typing.typeName == "str" && a.defaultRepr == "'" + s + "'" && a.description == ""
  {
    ElementUnused(prog, p);
    ClassifyScalar(p, Str);
    if !ClashesWithHelp(p.name) {
      DefaultQuoting(prog, p, doc);
    }
  }

  /** test_basics.py:65,75: `a_bool --a_bool` stores true and
      `a_bool --no-a_bool` false. */
  lemma BoolFlagScenario(prog: Program, p: Param, doc: Option<string>)
    requires p.name == "a_bool" && p.annotation == Some(Bool) && p.default.None?
    ensures BuildArg(prog, p, doc).Ok?
    ensures var a := BuildArg(prog, p, doc).value;
      && a.required
      && OptionStrings(a) == ["--" + p.name, "--no-" + p.name]
      && PairedFlagValue(OptionStrings(a)[0]) && !PairedFlagValue(OptionStrings(a)[1])
  {
    SameBuild(prog, p, doc);
    BoolFlagAction(p, doc);
    NoHyphen(p.name);
    PairedFlagForms(BuildArg(prog, p, doc).value);
  }

  /** A parameter that does not look its element up by name is built alike
      in both readings. */
  lemma SameBuild(prog: Program, p: Param, doc: Option<string>)
    requires !(DeclaredTypes(p).0.List? && DeclaredTypes(p).0.elem != BareList)
    ensures BuildArg(prog, p, doc) == BuildArg(Corrected, p, doc)
  {
    ElementUnused(prog, p);
  }

  /** `a_bool` is an identifier without a hyphen. */
  lemma NoHyphen(name: string)
    requires name == "a_bool"
    ensures '-' !in name
  {
  }

  /** A required enum parameter not named `help`: a `store` flag whose
      choices are the member names, and whose value names the member handed
      to the function. */
  lemma EnumFlag(prog: Program, e: EnumType, p: Param, doc: Option<string>, k: nat)
    requires p.annotation == Some(Enum(e)) && p.default.None?
    requires UniqueNames(e) && k < |e.members|
    ensures BuildArg(prog, p, doc).Ok? <==> !ClashesWithHelp(p.name)
    ensures BuildArg(prog, p, doc).Ok? ==> var a := BuildArg(prog, p, doc).value;
      && a.required && a.action == Store
      && a.choices == Some(MemberNames(e))
      && CastIn(prog, a, VStr(e.members[k].name)) == Ok(VMember(e, e.members[k]))
  {
    SameBuild(prog, p, doc);
    ClassifyEnum(p, e);
    if ClashesWithHelp(p.name) {
      return;
    }
    ActionSelection(prog, p, doc);
    ChoicesAreMemberNames(prog, p, doc);
    var a := BuildArg(prog, p, doc).value;
    assert EnumOf(a) == e;
    EnumNameRoundTrip(a, k);
    CastInSome(prog, a, VStr(e.members[k].name));
  }

  /** test_enum.py:28: `an_enum --value value2` offers the member names as
      choices and hands the function the member `value2`. */
  lemma EnumScenario(prog: Program, e: EnumType, p: Param, doc: Option<string>)
    requires e == EnumType("__main__", "Value", [Member("value1", 1), Member("value2", 2)])
    requires p == Param("value", Some(Enum(e)), None)
    ensures BuildArg(prog, p, doc).Ok?
    ensures var a := BuildArg(prog, p, doc).value;
      && a.required && a.action == Store
      && a.choices == Some(["value1", "value2"])
      && CastIn(prog, a, VStr("value2")) == Ok(VMember(e, Member("value2", 2)))
  {
    assert "value1" != "value2";
    assert MemberNames(e) == ["value1", "value2"];
    EnumFlag(prog, e, p, doc, 1);
  }

  /** An optional `list[str]` parameter defaulting to `None`, left out on
      the command line: the source's run stops with the `TypeError` of
      `enumerate(None)`, the corrected run calls the function with `None`. */
  lemma NoneListRunScenario(mods: Modules, p: Param, spec: FunctionSpec)
    requires p == Param("tags", Some(List(Str)), Some(VNone))
    requires BuildArg(Corrected, p, None).Ok?
    requires spec == FunctionSpec("f", "", [BuildArg(Corrected, p, None).value])
    ensures Run(AsWritten(mods), [spec], Metadata(None, None, None, None),
                ArgparseNamespace(Some("f"), false, false, [("tags", VNone)]), "") == Err(NotIterable)
    ensures Run(Corrected, [spec], Metadata(None, None, None, None),
                ArgparseNamespace(Some("f"), false, false, [("tags", VNone)]), "") == Ok(Call("f", [("tags", VNone)]))
  {
    var m := Metadata(None, None, None, None);
    var values := [("tags", VNone)];
    assert values[1..] == [];
    RunSingle(AsWritten(mods), spec, m, values);
    RunSingle(Corrected, spec, m, values);
    NoneListRecoerce(mods, p, spec);
  }

  /** A `list[bool]` parameter, in either reading: `get_action` tests the
      translated type `bool` before `is_list` (funcli.py:80-85), so the flag
      is the paired `--flags`/`--no-flags` switch and argparse hands over a
      single bool; the re-coercion then iterates that bool as a list
      (funcli.py:486-488), and the run stops with the `TypeError` of
      `enumerate(True)` whichever form was given. */
  lemma {:induction false} ListBoolFlagScenario(prog: Program, p: Param, spec: FunctionSpec, b: bool)
    requires p == Param("flags", Some(List(Bool)), None)
    requires BuildArg(prog, p, None).Ok?
    requires spec == FunctionSpec("f", "", [BuildArg(prog, p, None).value])
    ensures BuildArg(prog, p, None).value.action == BooleanOptional
    ensures Run(prog, [spec], Metadata(None, None, None, None),
                ArgparseNamespace(Some("f"), false, false, [("flags", VBool(b))]), "") == Err(NotIterable)
  {
    ListBoolFlag(prog, p, b);
    SingleFailingRun(prog, spec, spec.args[0], VBool(b), NotIterable);
  }

  /** A function with a parameter named `help`: its subparser already owns
      `--help`, so building the command line stops with argparse's conflict
      before any command can run. */
  lemma {:induction false} HelpParamScenario(prog: Program, f: FunctionDef)
    requires f.params == [Param("help", Some(Str), None)]
    ensures BuildCli(prog, [f]) == Err(ConflictingOption("--help"))
  {
    var p := f.params[0];
    ElementUnused(prog, p);
    ClassifyScalar(p, Str);
    SingleTable(f);
  }

  /** A table built from one function holds just that function. */
  lemma SingleTable(f: FunctionDef)
    ensures FunctionTable([f]) == [f]
  {
    assert [f][..0] == [];
  }

  /** The `list[bool]` flag (for a parameter not named `help`): the paired
      switch, and a bool it cannot re-coerce. */
  lemma {:induction false} ListBoolFlag(prog: Program, p: Param, b: bool)
    requires p.annotation == Some(List(Bool))
    ensures BuildArg(prog, p, None).Ok? <==> !ClashesWithHelp(p.name)
    ensures BuildArg(prog, p, None).Ok? ==> var a := BuildArg(prog, p, None).value;
      a.name == p.name && a.action == BooleanOptional && CastIn(prog, a, VBool(b)) == Err(NotIterable)
  {
    ScalarListAgrees(prog, p, Bool);
    BoolFlagAction(p, None);
    ClassifyScalarList(p, Bool);
    if ClashesWithHelp(p.name) {
      return;
    }
    var a := BuildArg(prog, p, None).value;
    assert IsListType(a.typing.original);
    CastInSome(prog, a, VBool(b));
  }

  /** A single function whose one flag fails to re-coerce the given value:
      the run stops with that error. */
  lemma {:induction false} SingleFailingRun(prog: Program, spec: FunctionSpec, a: ArgSpec, v: Value, e: Error)
    requires spec.name != "" && spec.args == [a] && !IsReserved(a.name)
    requires CastIn(prog, a, v) == Err(e)
    ensures Run(prog, [spec], Metadata(None, None, None, None),
                ArgparseNamespace(Some(spec.name), false, false, [(a.name, v)]), "") == Err(e)
  {
    var values := [(a.name, v)];
    assert FindArg(spec.args, a.name) == Some(a);
    RecoerceOne(prog, spec.args, values[0]);
    assert [values[0]] == values;
    RunSingle(prog, spec, Metadata(None, None, None, None), values);
  }

  /** A script with a single function, named on the command line, whose
      parameters are named apart from the switches: the run calls it with
      its re-coerced values. */
  lemma RunSingle(prog: Program, spec: FunctionSpec, m: Metadata, values: Namespace)
    requires spec.name != ""
    requires DistinctKeys(values) && NoReservedKey(values)
    ensures var args := Recoerce(prog, spec.args, values);
      Run(prog, [spec], m, ArgparseNamespace(Some(spec.name), false, false, values), "")
        == if args.Ok? then Ok(Call(spec.name, args.value)) else Err(args.error)
  {
    assert SpecNames([spec]) == [spec.name];
    assert SpecNamed([spec], spec.name) == spec;
    RunWithoutClashes(prog, [spec], m, Some(spec.name), false, false, values, "");
  }

  /** The re-coercion of the left-out `None` list in the two readings. */
  lemma NoneListRecoerce(mods: Modules, p: Param, spec: FunctionSpec)
    requires p == Param("tags", Some(List(Str)), Some(VNone))
    requires BuildArg(Corrected, p, None).Ok?
    requires spec == FunctionSpec("f", "", [BuildArg(Corrected, p, None).value])
    ensures Recoerce(AsWritten(mods), spec.args, [("tags", VNone)]) == Err(NotIterable)
    ensures Recoerce(Corrected, spec.args, [("tags", VNone)]) == Ok([("tags", VNone)])
  {
    var a := spec.args[0];
    assert FindArg(spec.args, "tags") == Some(a);
    NoneListDefault(Corrected, p, None);
    RecoerceOne(AsWritten(mods), spec.args, ("tags", VNone));
    RecoerceOne(Corrected, spec.args, ("tags", VNone));
  }

  /** Re-coercing a single entry. */
  lemma RecoerceOne(prog: Program, args: seq<ArgSpec>, entry: (string, Value))
    ensures var e := RecoerceEntry(prog, args, entry);
      Recoerce(prog, args, [entry]) == if e.Ok? then Ok([e.value]) else Err(e.error)
  {
    var r := Recoerce(prog, args, [entry]);
    assert [entry][0] == entry;
    if r.Ok? {
      assert r.value == [r.value[0]];
    }
  }

  /** test_help.py:25: the demo script's version line. */
  lemma DemoVersionScenario(m: Metadata)
    requires m.appName == Some("Demo") && m.version == Some("0.0.1") && m.author == Some("gme")
    ensures VersionLine(m) == "Demo version:0.0.1 by gme"
  {
    assert "Demo" != "__main__";
    assert VersionLine(m) == ("Demo" + " version:") + "0.0.1" + (" by " + "gme");
    DemoVersionLiteral();
  }

  /** The literal comparisons below are kept in lemmas of their own so that
      each is decided once, apart from the unfolding that leads to it. */
  lemma DemoVersionLiteral()
    ensures ("Demo" + " version:") + "0.0.1" + (" by " + "gme") == "Demo version:0.0.1 by gme"
  {
  }

  /** test_errors.py:65: the report of the demo's `ArgError`. */
  lemma ArgErrorScenario(n: string, msg: string)
    requires n == "test" && msg == "This arg value doesn't look right"
    ensures ArgErrorReport(n, msg) == "ERROR: test: This arg value doesn't look right"
  {
    assert ArgErrorReport(n, msg) == "ERROR: " + "test" + ": " + "This arg value doesn't look right";
    ErrorLineLiteral();
  }

  /** The report's literal, decided on its own. */
  lemma ErrorLineLiteral()
    ensures "ERROR: " + "test" + ": " + "This arg value doesn't look right"
      == "ERROR: test: This arg value doesn't look right"
  {
  }

  /** `repr` of a three-item list: the items' reprs, comma-separated, in
      brackets. */
  lemma ReprOfThree(a: Value, b: Value, c: Value)
    ensures PyRepr(VList([a, b, c])) == "[" + PyRepr(a) + ", " + PyRepr(b) + ", " + PyRepr(c) + "]"
  {
    ThreeItems(a, b, c);
    JoinThree(PyRepr(a), PyRepr(b), PyRepr(c));
  }

  /** The three items' reprs, in order. */
  lemma ThreeItems(a: Value, b: Value, c: Value)
    ensures PyRepr(VList([a, b, c])) == "[" + Join(", ", [PyRepr(a), PyRepr(b), PyRepr(c)]) + "]"
  {
    var vs := [a, b, c];
    var parts := seq(|vs|, k requires 0 <= k < |vs| => PyRepr(vs[k]));
    assert |parts| == 3 && parts[0] == PyRepr(a) && parts[1] == PyRepr(b) && parts[2] == PyRepr(c);
    assert parts == [PyRepr(a), PyRepr(b), PyRepr(c)];
  }

  /** Three parts joined by ", ". */
  lemma JoinThree(x: string, y: string, z: string)
    ensures Join(", ", [x, y, z]) == x + ", " + y + ", " + z
  {
    assert [x, y, z][1..] == [y, z];
    assert [y, z][1..] == [z];
    assert Join(", ", [y, z]) == y + ", " + z;
    assert Join(", ", [x, y, z]) == x + ", " + (y + ", " + z);
  }

  /** test_list.py:31: the strings print as `['11', '22', '33']`. */
  lemma StringListRepr()
    ensures PyRepr(VList([VStr("11"), VStr("22"), VStr("33")])) == "['11', '22', '33']"
  {
    ReprOfThree(VStr("11"), VStr("22"), VStr("33"));
    QuotePlain("11");
    QuotePlain("22");
    QuotePlain("33");
    StringListLiteral();
  }

  /** The list's literal, decided on its own. */
  lemma StringListLiteral()
    ensures "[" + ("'" + "11" + "'") + ", " + ("'" + "22" + "'") + ", " + ("'" + "33" + "'") + "]"
      == "['11', '22', '33']"
  {
  }

  /** test_list.py:57: the ints print as `[11, 22, 33]`. */
  lemma IntListRepr()
    ensures PyRepr(VList([VInt(11), VInt(22), VInt(33)])) == "[11, 22, 33]"
  {
    ReprOfThree(VInt(11), VInt(22), VInt(33));
    assert NatToDecimal(11) == "11" && NatToDecimal(22) == "22" && NatToDecimal(33) == "33";
    IntListLiteral();
  }

  /** The list's literal, decided on its own. */
  lemma IntListLiteral()
    ensures "[" + "11" + ", " + "22" + ", " + "33" + "]" == "[11, 22, 33]"
  {
  }

  /** test_basics.py:52: the list default prints as `['a', 'b', 'c']`. */
  lemma LetterListRepr()
    ensures PyRepr(VList([VStr("a"), VStr("b"), VStr("c")])) == "['a', 'b', 'c']"
  {
    ReprOfThree(VStr("a"), VStr("b"), VStr("c"));
    QuotePlain("a");
    QuotePlain("b");
    QuotePlain("c");
    LetterListLiteral();
  }

  /** The list's literal, decided on its own. */
  lemma LetterListLiteral()
    ensures "[" + ("'" + "a" + "'") + ", " + ("'" + "b" + "'") + ", " + ("'" + "c" + "'") + "]"
      == "['a', 'b', 'c']"
  {
  }

  /** The help's literal, decided on its own. */
  lemma HelpLiteral()
    ensures HelpText(false, "str", "'string'", "") == "[optional, str, default:'string']"
  {
    HelpPieces(false, "str", "'string'", "");
    HelpPiecesLiteral();
  }

  /** The help of an optional parameter without a description, piece by piece. */
  lemma HelpPieces(required: bool, typeName: string, defaultRepr: string, description: string)
    requires !required && description == ""
    ensures HelpText(required, typeName, defaultRepr, description)
      == "[" + "optional" + ", " + typeName + ", default:" + defaultRepr + "]" + ""
  {
  }

  /** The pieces' literal, decided on its own. */
  lemma HelpPiecesLiteral()
    ensures "[" + "optional" + ", " + "str" + ", default:" + "'string'" + "]" + ""
      == "[optional, str, default:'string']"
  {
  }

}

=== FILE: typenames.dfy ===
/** Turning a printed type name back into a type: `get_type_from_str`
    (funcli.py:145-162) and the `list[...]` name stripping of funcli.py:339.

    `eval` is replaced by a fixed table of the builtin names the model knows
    (and `list[...]` built from them); the loaded modules that
    `sys.modules[module]` would search are an explicit map from module name to
    the types it defines. */
module TypeNames {
  import opened Results
  import opened PyText
  import opened PyModel

  /** The loaded modules: module name to (attribute name to type). */
  type Modules = map<string, map<string, PyType>>

  /** `eval(text)` restricted to builtin type expressions; `None` is the
      `NameError` (or any other failure) of evaluating anything else. */
  function EvalBuiltin(text: string): Option<PyType>
    decreases |text|
  {
    if text == "int" then Some(Int)
    else if text == "str" then Some(Str)
    else if text == "bool" then Some(Bool)
    else if text == "list" then Some(BareList)
    else if text == "None" then Some(NoneType)
    else if |text| >= 6 && text[..5] == "list[" && text[|text| - 1] == ']' then
      match EvalBuiltin(text[5..|text| - 1])
      case Some(t) => Some(List(t))
      case None => None
    else None
  }

  /** `get_type_from_str(text)`: builtins first; otherwise a name without a
      dot is looked up in funcli's own namespace (which defines no type of the
      model), `module.Name` in the loaded module, and a name with two or more
      dots fails to unpack into exactly two parts. */
  function ResolveByName(mods: Modules, text: string): (r: Result<PyType>)
    ensures EvalBuiltin(text).Some? ==> r == Ok(EvalBuiltin(text).value)
    ensures EvalBuiltin(text).None? && CountChar(text, '.') != 1 ==> r == Err(UnresolvedType(text))
    ensures r.Err? ==> r == Err(UnresolvedType(text))
    ensures r.Ok? && EvalBuiltin(text).None? ==>
      exists i :: 0 <= i < |text| && text[i] == '.' && QualifiedLookup(mods, text, i) == Some(r.value)
  {
    match EvalBuiltin(text)
    case Some(t) => Ok(t)
    case None =>
      if CountChar(text, '.') != 1 then Err(UnresolvedType(text))
      else
        var i := IndexOf(text, '.');
        if i == |text| then Err(UnresolvedType(text))
        else
          match QualifiedLookup(mods, text, i)
          case Some(t) => Ok(t)
          case None => Err(UnresolvedType(text))
  }

  /** `getattr(sys.modules[m], n)` for the text `m.n` split at index `i`. */
  function QualifiedLookup(mods: Modules, text: string, i: nat): Option<PyType>
    requires i < |text|
  {
    if text[..i] in mods && text[i + 1..] in mods[text[..i]] then Some(mods[text[..i]][text[i + 1..]])
    else None
  }

  /** funcli.py:339: `name.replace("list", "").replace("[", "").replace("]", "")`. */
  function StripListText(name: string): string {
    ReplaceAll(ReplaceAll(ReplaceAll(name, "list", ""), "[", ""), "]", "")
  }

  /** The element type of a `list[T]` annotation as the source computes it:
      print the alias, strip the list syntax from the text, resolve the rest by
      name (funcli.py:337-346). */
  function ListElementByName(mods: Modules, t: PyType): Result<PyType> {
    ResolveByName(mods, StripListText(TypeName(t)))
  }

  /** Types built from builtins only: the ones `eval` can rebuild from a name. */
  predicate IsBuiltinType(t: PyType) {
    match t
    case Enum(_) => false
    case List(el) => IsBuiltinType(el)
    case _ => true
  }

  /** A name component that survives `StripListText` and splits cleanly at a
      single dot. */
  predicate PlainIdentifier(x: string) {
    !Contains(x, "list") && '[' !in x && ']' !in x && '.' !in x
  }

  // ---------------------------------------------------------------------
  // Round trips

  lemma {:induction false} EvalBuiltinOfRepr(t: PyType)
    requires IsBuiltinType(t)
    ensures EvalBuiltin(ItemTypeRepr(t)) == Some(t)
  {
    if t.List? {
      EvalBuiltinOfRepr(t.elem);
      EvalBuiltinList(ItemTypeRepr(t.elem));
    }
  }

  /** `list[X]` evaluates to the list of what `X` evaluates to. */
  lemma EvalBuiltinList(inner: string)
    ensures EvalBuiltin("list[" + inner + "]")
      == match EvalBuiltin(inner) case Some(t) => Some(List(t)) case None => None
  {
    var text := "list[" + inner + "]";
    assert |text| == |inner| + 6;
    assert text[..5] == "list[" && text[5..|text| - 1] == inner && text[|text| - 1] == ']';
  }

  /** Printing a builtin type and resolving the printed name gives the type
      back: `int`, `str`, `bool`, `list`, `list[str]`, `list[int]`, ... */
  lemma ResolveTypeNameRoundTrip(mods: Modules, t: PyType)
    requires IsBuiltinType(t)
    ensures ResolveByName(mods, TypeName(t)) == Ok(t)
  {
    EvalBuiltinOfRepr(t);
  }

  lemma {:induction false} EvalBuiltinHasNoDot(text: string)
    requires EvalBuiltin(text).Some?
    ensures '.' !in text
    decreases |text|
  {
    if text == "int" || text == "str" || text == "bool" || text == "list" || text == "None" {
    } else {
      var inner := text[5..|text| - 1];
      EvalBuiltinHasNoDot(inner);
      assert text == "list[" + inner + "]";
    }
  }

  /** A `module.Name` text is no builtin, holds one dot, and splits at it. */
  lemma QualifiedNameSplits(m: string, n: string)
    requires '.' !in m && '.' !in n
    ensures var text := m + "." + n;
      && EvalBuiltin(text) == None
      && CountChar(text, '.') == 1
      && IndexOf(text, '.') == |m|
      && text[..|m|] == m && text[|m| + 1..] == n
  {
    var text := m + "." + n;
    assert text[|m|] == '.';
    if EvalBuiltin(text).Some? {
      EvalBuiltinHasNoDot(text);
    }
    assert text == m + ("." + n);
    CountCharConcat(m, "." + n, '.');
    CountCharConcat(".", n, '.');
    CountCharAbsent(m, '.');
    CountCharAbsent(n, '.');
    assert CountChar(".", '.') == 1;
    var i := IndexOf(text, '.');
    assert i == |m|;
    assert text[..|m|] == m && text[|m| + 1..] == n;
  }

  /** `module.Name` resolves to what that module defines under that name, and
      fails when the module does not define it. */
  lemma ResolveQualifiedName(mods: Modules, m: string, n: string)
    requires '.' !in m && '.' !in n
    ensures ResolveByName(mods, m + "." + n)
      == if m in mods && n in mods[m] then Ok(mods[m][n]) else Err(UnresolvedType(m + "." + n))
  {
    QualifiedNameSplits(m, n);
  }

  /** A word in front of `[X]` is removed and nothing else, when `X` does not
      hold the word and the word has no closing bracket and does not start
      with an opening one. */
  lemma RemoveLeadingWord(w: string, x: string)
    requires w != [] && w[0] != '[' && ']' !in w
    requires !Contains(x, w)
    ensures ReplaceAll(w + ("[" + (x + "]")), w, "") == "[" + x + "]"
  {
    var tail := x + "]";
    NoOccurrenceAcross(x, ']', "", w);
    assert x + [']'] + "" == tail;
    ReplaceAbsent(tail, w, "");
    ReplaceSkip("[", tail, w, "");
    ReplaceAtStart(w, "[" + tail, "");
  }

  /** Stripping the list syntax from `list[X]` leaves `X` whenever `X` itself
      holds neither `list` nor a bracket. */
  lemma StripListTextOfAlias(x: string)
    requires !Contains(x, "list") && '[' !in x && ']' !in x
    ensures StripListText("list[" + x + "]") == x
  {
    RemoveLeadingWord("list", x);
    assert "list[" + x + "]" == "list" + ("[" + (x + "]"));
    StripBrackets(x);
  }

  /** Removing both brackets from `[X]` leaves `X` when `X` holds neither. */
  lemma StripBrackets(x: string)
    requires '[' !in x && ']' !in x
    ensures ReplaceAll(ReplaceAll("[" + x + "]", "[", ""), "]", "") == x
  {
    RemoveCharConcat("[", x + "]", '[');
    RemoveCharConcat(x, "]", '[');
    ContainsChar(x, '[');
    ReplaceAbsent(x, "[", "");
    ContainsChar("]", '[');
    ReplaceAbsent("]", "[", "");
    assert ("[" + x + "]") == "[" + (x + "]");
    var s2 := ReplaceAll("[" + x + "]", "[", "");
    assert s2 == x + "]";
    RemoveCharConcat(x, "]", ']');
    ContainsChar(x, ']');
    ReplaceAbsent(x, "]", "");
  }

  /** Where the element's printed name is plain, the source's name round trip
      finds the element type itself: for `int`, `str`, `bool`, and for an enum
      whose module and class name hold no `list`, bracket or dot and which
      its module defines under that name. */
  lemma ListElementByNameAgrees(mods: Modules, el: PyType)
    requires el == Int || el == Str || el == Bool
      || (el.Enum? && PlainIdentifier(el.e.moduleName) && PlainIdentifier(el.e.name)
          && el.e.moduleName in mods && el.e.name in mods[el.e.moduleName]
          && mods[el.e.moduleName][el.e.name] == el)
    ensures ListElementByName(mods, List(el)) == Ok(el)
  {
    if el.Enum? {
      EnumElementByName(mods, el.e);
    } else {
      ScalarElementByName(mods, el);
    }
  }

  lemma ScalarElementByName(mods: Modules, el: PyType)
    requires el == Int || el == Str || el == Bool
    ensures ListElementByName(mods, List(el)) == Ok(el)
  {
    var x := ItemTypeRepr(el);
    if el == Int {
      assert x == "int";
    } else if el == Str {
      assert x == "str";
    } else {
      assert x == "bool";
    }
    OccurrenceHasChar(x, "list", 'l');
    OccurrenceHasChar(x, "list", 'i');
    StripListTextOfAlias(x);
    assert EvalBuiltin(x) == Some(el);
  }

  lemma EnumElementByName(mods: Modules, e: EnumType)
    requires PlainIdentifier(e.moduleName) && PlainIdentifier(e.name)
    requires e.moduleName in mods && e.name in mods[e.moduleName] && mods[e.moduleName][e.name] == Enum(e)
    ensures ListElementByName(mods, List(Enum(e))) == Ok(Enum(e))
  {
    var m := e.moduleName;
    var n := e.name;
    NoOccurrenceAcross(m, '.', n, "list");
    assert ItemTypeRepr(Enum(e)) == m + ['.'] + n;
    StripListTextOfAlias(m + ['.'] + n);
    ResolveQualifiedName(mods, m, n);
  }

  /** The stripping is textual: for an enum class named `<a>list` the `list`
      inside the class name is removed too, so the source looks up
      `module.<a>` instead of the class it was given. */
  lemma {:induction false} ListElementByNameMangles(mods: Modules, e: EnumType, a: string)
    requires e.name == a + "list"
    requires 'l' !in e.moduleName && 'l' !in a
    requires '[' !in e.moduleName && '[' !in a && ']' !in e.moduleName && ']' !in a
    requires '.' !in e.moduleName && '.' !in a
    ensures ListElementByName(mods, List(Enum(e))) == ResolveByName(mods, e.moduleName + "." + a)
  {
    var m := e.moduleName;
    var x := m + "." + a;
    var u := "[" + x;
    assert ItemTypeRepr(Enum(e)) == m + "." + (a + "list");
    var s := TypeName(List(Enum(e)));
    assert s == "list" + (u + "list]");
    ReplaceAtStart("list", u + "list]", "");
    ReplaceSkip(u, "list]", "list", "");
    ReplaceAtStart("list", "]", "");
    assert ReplaceAll("]", "list", "") == "]";
    assert ReplaceAll(s, "list", "") == "[" + x + "]";
    StripBrackets(x);
  }

  /** The concrete case: `list[Checklist]` for an enum `Checklist` defined in
      the main script resolves `__main__.Check`, which the script does not
      define, so building the CLI fails. */
  lemma ChecklistElementUnresolved(e: EnumType, mods: Modules)
    requires e == EnumType("__main__", "Checklist", [Member("todo", 1), Member("done", 2)])
    requires mods == map["__main__" := map["Checklist" := Enum(e)]]
    ensures ListElementByName(mods, List(Enum(e))) == Err(UnresolvedType("__main__.Check"))
  {
    ChecklistLiterals();
    ListElementByNameMangles(mods, e, "Check");
    ResolveQualifiedName(mods, "__main__", "Check");
  }

  lemma ChecklistLiterals()
    ensures "Checklist" == "Check" + "list" && "Check" != "Checklist"
    ensures 'l' !in "__main__" && '[' !in "__main__" && ']' !in "__main__" && '.' !in "__main__"
    ensures 'l' !in "Check" && '[' !in "Check" && ']' !in "Check" && '.' !in "Check"
    ensures "__main__" + "." + "Check" == "__main__.Check"
  {
  }
}
